=== FILE: README.md ===
# fluent-plugin-deis-kafka, modelled in Dafny

This project models `fluent-plugin-deis-kafka`, a Fluentd output plugin. The
plugin picks the Deis router's access-log records out of a Kubernetes log
stream and turns each one into three InfluxDB points: request time, response
time and bytes sent. It then sends those points to a Kafka topic in batches.

The model covers two parts of the plugin.

- **The Deis mixin** (`lib/fluent/mixin/deis.rb`):
  - `kubernetes?`, `from_container?` and `from_router?`;
  - `parse_router_log`, with Ruby's `String#split(" - ")` and `strip` written out;
  - `build_series`.
- **The output plugin** (`lib/fluent/plugin/out_deis.rb`):
  - the producer options `configure` builds;
  - `filter_record`;
  - the per-thread producer pool (`get_producer`, `shutdown_producers`);
  - `deliver_messages` and its discard policy;
  - `refresh_client`;
  - `write`, including its batching loop and its rescue path.

Modules:

| module | file | contents |
|---|---|---|
| `Wrappers` | `wrappers.dfy` | `Option` for Ruby's `nil`; `Outcome` for a value or an exception that escaped |
| `RubyString` | `ruby_string.dfy` | literal substring search, `split`, `join`, `strip`, `bytesize` |
| `Deis` | `deis.dfy` | records, metrics, points; the mixin's methods |
| `DeisVector` | `deis_vector.dfy` | the router line from the plugin's test suite, parsed |
| `PluginConfig` | `plugin_config.dfy` | configuration parameters and producer options |
| `ProducerPool` | `producer_pool.dfy` | `@producers` keyed by thread id; `get_producer`, `shutdown_producers` |
| `Batcher` | `batcher.dfy` | `deliver_messages` and the loop of `write` as a fold that emits an event trace |
| `OutDeis` | `out_deis.dfy` | `filter_record`, `refresh_client`, `write` with recovery |

The world outside the repository becomes parameters of the model:

- The InfluxDB serialiser is `dump: Point -> Option<string>`. `None` means the dump raised.
- The broker's answer to the k-th delivery of a chunk is `broker(k)`.
- Whether `Kafka.new` succeeds is the flag `connects`.
- The current thread is an integer `tid`.
- Ruby's `to_f` is the uninterpreted constructor `ToF(text)`, so no float arithmetic enters the model.

### Where the code and a natural reading of the plugin's behaviour differ

The model follows the code in each of these cases.

- **The discard policy only swallows `Kafka::DeliveryFailed`.** With
  `discard_kafka_delivery_failed`, that one failure clears the buffer
  (`out_deis.rb:91-94`). Every other delivery error still escapes.
- **The byte test is guarded by `messages.positive?`; the count test is not.**
  The flush test is `(messages > 0 && bytes + size > max_bytes) || count_reached`,
  by Ruby's precedence (`out_deis.rb:168-170`). Two consequences:
  - a first line larger than `kafka_agg_max_bytes` is enqueued without a
    byte-triggered flush; with `kafka_agg_max_messages` unset or at least 1,
    without any flush;
  - `kafka_agg_max_messages <= 0` delivers before every line, so each batch
    holds one line and the chunk's first delivery is of an empty buffer.
- **The rescue of `write` covers `get_producer`.** When `@kafka` is nil,
  creating a producer raises NoMethodError. The pool is then swept, the client
  rebuilt, and the error re-raised (`out_deis.rb:139`, `200-207`).
- **A filtered record is three lines only if no dump contains a newline.**
  The three dumps are joined with `"\n"` whatever they contain
  (`out_deis.rb:130-132`). `FilterRecordLines` assumes newline-free dumps.

## Model

| member | source | states |
|---|---|---|
| `RubyString.IndexOf` | lib/fluent/mixin/deis.rb:16 | the position found is an occurrence of the pattern, and no earlier position is one; when nothing is found, no position holds the pattern |
| `RubyString.ContainsIff` | lib/fluent/mixin/deis.rb:16 | a literal pattern matches a string exactly when it occurs at some position inside it |
| `RubyString.Split` | lib/fluent/mixin/deis.rb:51 | Ruby's `split` with a string separator: the left-to-right pieces without trailing empty ones; no piece holds the separator and the last is non-empty (pinned down by JoinSplitAll and SplitAllJoin) |
| `RubyString.Join` | lib/fluent/plugin/out_deis.rb:132 | Ruby's `join`: the fields with the separator between each pair; inverted by split (SplitAllJoin, JoinSplitAll) |
| `RubyString.DropTrailingEmpty` | lib/fluent/mixin/deis.rb:51 | split's clean-up keeps a prefix of the fields that does not end in an empty field, and everything it drops is empty |
| `RubyString.JoinSplitAll` | lib/fluent/mixin/deis.rb:51 | joining the pieces of a split with the separator rebuilds the original line |
| `RubyString.SplitAllPiecesFree` | lib/fluent/mixin/deis.rb:51 | no field produced by the split contains the separator |
| `RubyString.SplitAllJoin` | lib/fluent/mixin/deis.rb:51 | splitting a join of separable fields gives back those fields, so split inverts join |
| `RubyString.SeparableByChar` | lib/fluent/plugin/out_deis.rb:132 | a field that avoids a one-character separator can be joined and split back |
| `RubyString.SeparableWhenStartSafe` | lib/fluent/mixin/deis.rb:51 | a field in which no space is the last character or is followed by a dash can stand before the router separator |
| `RubyString.LStrip` | lib/fluent/mixin/deis.rb:54-58 | the left trim is a suffix of the input; all it removes is whitespace, and it starts with a non-whitespace character unless empty |
| `RubyString.RStrip` | lib/fluent/mixin/deis.rb:54-58 | the right trim is a prefix of the input; all it removes is whitespace, and it ends with a non-whitespace character unless empty |
| `RubyString.Strip` | lib/fluent/mixin/deis.rb:54-58 | Ruby's `strip`: the result is no longer than the input and has no whitespace at either edge (StripTrims fixes it as the middle of the input) |
| `RubyString.StripTrims` | lib/fluent/mixin/deis.rb:54-58 | `strip` keeps a middle part of the field that sits between a whitespace prefix and a whitespace suffix |
| `RubyString.StripEdges` | lib/fluent/mixin/deis.rb:54-58 | a stripped field neither starts nor ends with whitespace |
| `RubyString.StripTrimmed` | lib/fluent/mixin/deis.rb:54-58 | a field with no whitespace at either edge is left unchanged by `strip` |
| `RubyString.StripIdempotent` | lib/fluent/mixin/deis.rb:54-58 | stripping a stripped field changes nothing |
| `RubyString.ByteSize` | lib/fluent/plugin/out_deis.rb:156 | a line's byte size is at least its length in characters and at most four times it |
| `RubyString.ByteSizeAppend` | lib/fluent/plugin/out_deis.rb:189 | byte sizes add up over concatenation |
| `Deis.IsKubernetes` | lib/fluent/mixin/deis.rb:6-8 | `kubernetes?`: the record has a `kubernetes` entry (used by FromRouterIff) |
| `Deis.FromContainer` | lib/fluent/mixin/deis.rb:14-19 | `from_container?` for a literal pattern: Kubernetes metadata and a container name containing the pattern (characterised by FromRouterIff) |
| `Deis.FromRouter` | lib/fluent/mixin/deis.rb:10-12 | `from_router?`: `from_container?` with "deis-router" (characterised by FromRouterIff) |
| `Deis.FromRouterIff` | lib/fluent/mixin/deis.rb:6-19 | a record is from the router exactly when it has a `kubernetes` entry with a container name that contains "deis-router"; a nil container name never matches |
| `Deis.MetricOfFields` | lib/fluent/mixin/deis.rb:53-59 | the metric at the fixed positions 1, 4, 6, 12, 13 of a split line, each stripped, with the caller's host (used by ParseRouterLog and ParseJoined) |
| `Deis.ParseRouterLog` | lib/fluent/mixin/deis.rb:50-64 | a metric comes back exactly when there is a log and Ruby's split of it has at least 14 fields; the metric carries the caller's host and the stripped fields 1, 4, 6, 12 and 13; a nil log gives nil and nothing raises |
| `Deis.ParseJoined` | lib/fluent/mixin/deis.rb:51-58 | a line built from 14 or more separable fields, the last non-empty, parses to the fields at the fixed positions; fields past index 13 are ignored |
| `Deis.ParseRejectsEmptyLastField` | lib/fluent/mixin/deis.rb:51-52 | a 14-field line whose last field is empty is rejected, because split drops that trailing empty field |
| `Deis.ParseHostIndependent` | lib/fluent/mixin/deis.rb:59 | whether a line parses does not depend on the host, and two hosts give metrics that differ only in their host |
| `Deis.SeriesOf` | lib/fluent/mixin/deis.rb:24-41 | the three points of a metric (inverted by MetricOfSeries in SeriesRoundTrip; shape in SeriesShape) |
| `Deis.SeriesRoundTrip` | lib/fluent/mixin/deis.rb:24-41 | the metric can be read back from its three points, so the points lose nothing |
| `Deis.SeriesShape` | lib/fluent/mixin/deis.rb:24-41 | there are three points: request time, then response time, then bytes sent, all sharing one tag set made from app, status code and host |
| `Deis.BuildSeries` | lib/fluent/mixin/deis.rb:21-45 | raises NoMethodError exactly when the record has no `kubernetes` entry; otherwise it is nil exactly when parsing fails, and its points carry the parsed metric |
| `Deis.BuildSeriesCarriesMetric` | lib/fluent/mixin/deis.rb:21-45 | for a record with Kubernetes metadata, `build_series` returns normally, and it is nil exactly when the parse is nil |
| `DeisVector.RouterLineFields` | test/plugin/test_out_deis.rb:13 | the test suite's router line splits into its 14 fields; each `" - - - "` run gives a `"-"` field |
| `DeisVector.RouterFieldsParse` | lib/fluent/mixin/deis.rb:51-59 | any line with the test fields parses to app "foo", status "200" and the numbers "211", "0.002" and "0.046"; the trailing newline of the last field is stripped |
| `DeisVector.RouterLineParses` | test/plugin/test_out_deis.rb:67-75 | the test line with host "some.new.host" parses to the values the test suite expects, with that host |
| `PluginConfig.ProducerOptsOf` | lib/fluent/plugin/out_deis.rb:112-114 | retries and acks are always present; the ack timeout is present only when configured, and the codec (as a symbol) likewise |
| `PluginConfig.DefaultProducerOpts` | lib/fluent/plugin/out_deis.rb:29-36 | with the default configuration the producer options are two retries and one required ack, nothing else |
| `PluginConfig.ProducerOptsFaithful` | lib/fluent/plugin/out_deis.rb:112-114 | two configurations give the same producer options exactly when their retries, acks, ack timeout and codec agree |
| `ProducerPool.EmptyPoolValid` | lib/fluent/plugin/out_deis.rb:54 | the empty pool `initialize` sets up is consistent |
| `ProducerPool.GetProducer` | lib/fluent/plugin/out_deis.rb:76-85 | returns the thread's stored handle and leaves the pool alone; otherwise creates a new handle with the client and options and stores it under the thread, leaving other threads' entries unchanged; without a client it raises NoMethodError |
| `ProducerPool.GetProducerValid` | lib/fluent/plugin/out_deis.rb:76-85 | `get_producer` keeps the pool consistent: one handle per thread, no handle shared, and a created handle is distinct from every stored one |
| `ProducerPool.GetProducerIdempotent` | lib/fluent/plugin/out_deis.rb:78-83 | asking again from the same thread returns the same handle and changes nothing |
| `ProducerPool.ShutdownProducers` | lib/fluent/plugin/out_deis.rb:69-74 | after the sweep the map is empty, every handle shut down was stored, and the creation count is kept |
| `ProducerPool.HandlesInOrderExact` | lib/fluent/plugin/out_deis.rb:71 | the sweep visits one handle per thread in insertion order, each stored under its thread |
| `ProducerPool.ShutdownEachOnce` | lib/fluent/plugin/out_deis.rb:69-74 | in a consistent pool, every stored handle is shut down exactly once |
| `ProducerPool.SweepThenGetIsFresh` | lib/fluent/plugin/out_deis.rb:69-85 | after a sweep the pool is consistent, and any handle a thread then gets is new, never one just shut down |
| `Batcher.DeliverMessages` | lib/fluent/plugin/out_deis.rb:87-99 | each call is one delivery of the pending buffer; it escapes exactly when the broker fails and the failure is not a DeliveryFailed under the discard flag; on return the buffer is empty and the counters are untouched |
| `Batcher.DiscardPolicy` | lib/fluent/plugin/out_deis.rb:88-97 | a DeliveryFailed is swallowed exactly when the discard flag is set, and otherwise escapes unchanged |
| `Batcher.FlushDue` | lib/fluent/plugin/out_deis.rb:168-170 | the flush test with Ruby's precedence (restated over the buffer by FlushDueOnBuffer) |
| `Batcher.Step` | lib/fluent/plugin/out_deis.rb:149-192 | one iteration of `write`'s loop: it only appends to the trace, at most two events, and an escape is the broker's failure on this delivery (StepSkips, StepAccepts, StepInv) |
| `Batcher.Process` | lib/fluent/plugin/out_deis.rb:148-193 | the loop over a chunk, stopping at the first escape: at most two events per record (ProcessInv, ProcessPolicy) |
| `Batcher.WriteBatches` | lib/fluent/plugin/out_deis.rb:147-197 | the loop, then one final delivery: extends the loop's trace by at most one delivery (WriteBatchesSound, FinalDelivery, WriteBatchesAbort) |
| `Batcher.StepSkips` | lib/fluent/plugin/out_deis.rb:153-161 | a nil line, or one over `max_send_limit_bytes`, leaves the loop state and both counters unchanged |
| `Batcher.FlushDueOnBuffer` | lib/fluent/plugin/out_deis.rb:168-170 | the flush test on the counters equals the same test on the pending buffer: byte limit guarded by a non-empty buffer, or the message limit reached |
| `Batcher.StepAccepts` | lib/fluent/plugin/out_deis.rb:168-189 | an accepted line causes a delivery first exactly when the flush test holds, and is then the only line of the new batch; otherwise it joins the pending batch; either way it is enqueued last and the counters grow by one line |
| `Batcher.ProduceKeepsInv` | lib/fluent/plugin/out_deis.rb:184-189 | enqueuing without a flush keeps the counters equal to the buffer's line count and byte size, and keeps the batch bounds |
| `Batcher.FlushEmpties` | lib/fluent/plugin/out_deis.rb:174-176 | a flush that passes empties the buffer and resets both counters, and every line accepted so far has been handed to a `deliver_messages` call |
| `Batcher.ByteSumIsTextSize` | lib/fluent/plugin/out_deis.rb:189 | the byte total of a batch is the `bytesize` of its lines taken together |
| `Batcher.CounterIsBufferSize` | lib/fluent/plugin/out_deis.rb:184-189 | throughout the loop, `messages_bytes` is the `bytesize` of the text waiting in the producer's buffer |
| `Batcher.StepInv` | lib/fluent/plugin/out_deis.rb:148-193 | one loop step keeps the invariant: deliveries plus the buffer hold exactly the accepted lines in order, and the batch bounds hold; or it escapes with an unswallowed failure after enqueuing nothing new |
| `Batcher.ProcessInv` | lib/fluent/plugin/out_deis.rb:148-193 | the whole loop keeps that invariant, or it escapes with a failure the policy does not swallow, having enqueued a prefix of the accepted lines |
| `Batcher.WriteBatchesSound` | lib/fluent/plugin/out_deis.rb:148-197 | on normal return every accepted line was handed to exactly one `deliver_messages` call, in input order, and the buffer is empty. Every delivery was accepted by the broker or was a DeliveryFailed the discard flag swallowed. Every delivery holds at most `kafka_agg_max_messages` lines and at most `kafka_agg_max_bytes`, unless it is one line. No delivery is empty when the message limit is at least one |
| `Batcher.ProcessPolicy` | lib/fluent/plugin/out_deis.rb:87-99 | a loop that does not escape saw every delivery accepted or swallowed as a DeliveryFailed under the discard flag |
| `Batcher.NoDiscardDeliversAccepted` | lib/fluent/plugin/out_deis.rb:96-98 | without the discard flag, a normal return means the broker received exactly the accepted lines, in order |
| `Batcher.FinalDelivery` | lib/fluent/plugin/out_deis.rb:194-197 | the final delivery happens exactly when some line was accepted |
| `Batcher.WriteBatchesAbort` | lib/fluent/plugin/out_deis.rb:168-197 | an exception escaping the loop is a failure the policy does not swallow, raised by the last delivery; every delivery made before or at the escape kept within the batch bounds |
| `Batcher.AllDelivered` | lib/fluent/plugin/out_deis.rb:148-197 | with a broker that accepts every delivery, nothing escapes and the broker receives exactly the accepted lines in order |
| `Batcher.DeliveredIsFlushed` | lib/fluent/plugin/out_deis.rb:168-177 | with a broker that accepts everything, every delivery attempted succeeds |
| `Batcher.NonPositiveCountFlushesEveryLine` | lib/fluent/plugin/out_deis.rb:168-177 | with `kafka_agg_max_messages` at zero or below, a delivery, possibly of an empty buffer, comes before every enqueued line |
| `OutDeis.DumpAll` | lib/fluent/plugin/out_deis.rb:130-132 | the points dump exactly when each one does, and the dumps are kept in point order |
| `OutDeis.FilterRecord` | lib/fluent/plugin/out_deis.rb:126-135 | there is a line exactly when the record is from the router, its log parses and every dump succeeds; the line is the dumps joined by newlines; nothing raises |
| `OutDeis.FilterRecordDumps` | lib/fluent/plugin/out_deis.rb:126-135 | for a router record parsing to a metric, the line is the request-time, response-time and bytes-sent dumps in that order, separated by newlines, or nil if any dump raises |
| `OutDeis.FilterRecordRouterOnly` | lib/fluent/plugin/out_deis.rb:127-129 | a record not from the router never yields a line; a router record yields one exactly when it parses and all three dumps succeed |
| `OutDeis.FilterRecordLines` | lib/fluent/plugin/out_deis.rb:130-132 | with newline-free dumps, splitting the filtered line on newlines gives back the dumps |
| `OutDeis.NewClient` | lib/fluent/plugin/out_deis.rb:102 | the client `Kafka.new` gets: the brokers split on commas and the client id (SeedBrokersRoundTrip) |
| `OutDeis.RefreshClient` | lib/fluent/plugin/out_deis.rb:101-107 | a failed `Kafka.new` raises exactly when `raise_error` is set; when swallowed it leaves `@kafka` as it was; on success `@kafka` is the client built from the configuration |
| `OutDeis.SeedBrokersRoundTrip` | lib/fluent/plugin/out_deis.rb:102 | a comma-separated list of non-empty broker names without commas becomes exactly those seed brokers |
| `OutDeis.Recover` | lib/fluent/plugin/out_deis.rb:200-207 | recovery empties the pool and shuts down the handles the sweep visits. It rebuilds the client without raising and re-raises the same exception |
| `OutDeis.Write` | lib/fluent/plugin/out_deis.rb:137-208 | a normal return keeps the client, shuts nothing down and leaves the thread's producer stored; an escape leaves the pool empty and the client rebuilt when possible |
| `OutDeis.WriteRaisesWhat` | lib/fluent/plugin/out_deis.rb:137-208 | `write` raises exactly when no producer can be had (NoMethodError) or the loop lets a failure escape; it re-raises that same exception after sweeping the pool in use |
| `OutDeis.WriteDeliversAccepted` | lib/fluent/plugin/out_deis.rb:137-197 | on normal return every filtered, size-accepted line was handed to exactly one `deliver_messages` call, in record order, within the batch bounds. Each delivery was accepted or a discarded DeliveryFailed, so without the discard flag the broker received exactly those lines. An escaping delivery error is never one the policy swallows. Whatever the outcome, every delivery made kept within the batch bounds |
| `OutDeis.WritePool` | lib/fluent/plugin/out_deis.rb:200-207 | the rescue sweeps the pool in use, which holds the thread's producer when one was obtained; a normal return keeps it |
| `OutDeis.WriteKeepsPoolValid` | lib/fluent/plugin/out_deis.rb:137-208 | a consistent pool stays consistent across `write`, whether or not it raises |
| `OutDeis.WriteRecoveryFresh` | lib/fluent/plugin/out_deis.rb:200-207 | after a recovery, the next producer any thread gets is new, never one that was shut down |
| `OutDeis.WriteAllDelivered` | lib/fluent/plugin/out_deis.rb:137-197 | with a client (or a stored producer) and a broker that accepts everything, `write` returns normally and the broker receives exactly the accepted lines in record order |

## Left out

- **Float parsing (`to_f`).** Numbers stay as the stripped text `ToF(text)`; float arithmetic is outside the model.
- **InfluxDB's `PointValue#dump`.** The line-protocol escaping lives in a foreign gem and is the parameter `dump`.
- **Kafka I/O.** This covers `Kafka.new`, `Kafka::Client#producer`, the network side of `deliver_messages`, `produce2` and `clear_buffer`. `lib/fluent/plugin/kafka_producer_ext.rb` is not part of this model. The producer is an abstract buffer, and the broker is the oracle `broker`. Each `write` starts its loop with an empty buffer (`Batcher.Start`), although the thread's producer outlives the call in `@producers`. This loses nothing: a normal return leaves the buffer empty (`WriteBatchesSound`), and every escape shuts the whole pool down.
- **`Mutex` and threads.** The pool is sequential and the thread identity is a parameter, because the mutex only serialises the two pool operations.
- **Logging and `puts`.** They have no effect on state.
  - The `log.trace` block (`out_deis.rb:179-182`) names undefined locals and only runs at trace level.
  - The `log.debug` blocks only format text.
- **`records_by_topic` and `bytes_by_topic`.** They only feed a debug message.
- **Fluentd scaffolding.** This covers `config_param` declarations beyond their defaults, `register_output`, `initialize` apart from its empty `@producers` (modelled as `EmptyPool`), `start`, `shutdown`, the warnings in `configure`, msgpack chunk unpacking, `chunk.metadata.tag` and the record timestamps.
- **The inner `rescue StandardError` of `write` (`out_deis.rb:162-165`).** It cannot fire: `filter_record` rescues everything itself, and `bytesize` on a string does not raise.
- **A `handle.shutdown` that raises during the sweep.** It would escape the rescue of `write`; the model assumes shutdown returns.
- `Deis.FromRouterIff`: `from_container?` builds a regular expression from its pattern. The model treats the pattern as a literal substring. This is exact for `"deis-router"`, which has no metacharacters, but is weaker than a general regex match.
- `RubyString.LStrip`: older Ruby releases did not remove leading NUL characters in `lstrip`. The model removes NUL on both sides, as current Ruby does.
- `RubyString.ByteSize`: assumes the line is valid UTF-8. An invalidly encoded string's `bytesize` is not modelled.
- `OutDeis.RefreshClient`: why `Kafka.new` fails is reduced to the flag `connects`, and every such failure is `ClientInitError`.
- `PluginConfig.ProducerOptsOf`: `ack_timeout` is kept as the configured integer. Fluentd's `:time` type conversion is not modelled.
- `DeisVector.RouterLineFields`: the test line is written as the join of its fields rather than as a literal. Splitting it back is what the lemma proves.

=== FILE: batcher.dfy ===
/** The batching loop of `write` and the delivery policy of
    `deliver_messages`.

    The loop receives the filtered line of each record of a chunk (`None`
    where `filter_record` gave nil), keeps the two counters of the source and
    the producer's pending buffer, and emits a trace of `produce2` calls and
    deliveries. What the broker does with the k-th delivery of the chunk is
    given by `broker(k)`. */
module Batcher {
  import opened Wrappers
  import opened RubyString
  import opened PluginConfig

  /** What one `producer.deliver_messages` call does. */
  datatype Delivery = Delivered | Fails(error: Exception)

  /** One action of `write` on the producer. */
  datatype Event =
    | Enqueue(line: string, topic: string)        // `produce2(line, topic: topic)`
    | Flush(batch: seq<string>, result: Delivery)  // a delivery of the pending buffer

  /** The loop state: the counters `messages` and `messages_bytes`, the
      producer's pending buffer, the deliveries attempted so far and the
      events emitted so far. */
  datatype Batch = Batch(
    messages: int,
    bytes: int,
    pending: seq<string>,
    attempts: nat,
    trace: seq<Event>)

  /** The loop either continues or an exception has escaped it. */
  datatype Run = Running(batch: Batch) | Aborted(batch: Batch, error: Exception)

  /** The state at the start of a chunk; the producer's buffer is empty.
      The thread's producer outlives a `write`, but a normal return leaves
      its buffer empty (WriteBatchesSound) and an escape shuts it down, so
      no chunk finds lines left over from an earlier one. */
  const Start: Batch := Batch(0, 0, [], 0, [])

  /* ---------------------------------------------------------------------
     deliver_messages
     --------------------------------------------------------------------- */

  /** The delivery failure that the discard policy swallows. */
  predicate Discarded(c: Config, d: Delivery) {
    d == Fails(DeliveryFailed) && c.discardKafkaDeliveryFailed
  }

  /** `deliver_messages(producer, tag)`: the pending buffer is delivered. With
      `discard_kafka_delivery_failed`, a DeliveryFailed clears the buffer and
      is swallowed; every other failure escapes. */
  function DeliverMessages(c: Config, broker: nat -> Delivery, b: Batch): (r: Run)
    ensures r.batch.trace == b.trace + [Flush(b.pending, broker(b.attempts))]
    ensures r.batch.attempts == b.attempts + 1
    ensures r.Aborted? <==> broker(b.attempts).Fails? && !Discarded(c, broker(b.attempts))
    ensures r.Aborted? ==> r.error == broker(b.attempts).error
    ensures r.Running? ==> r.batch.pending == []
    ensures r.batch.messages == b.messages && r.batch.bytes == b.bytes
  {
    var result := broker(b.attempts);
    var b' := b.(attempts := b.attempts + 1, trace := b.trace + [Flush(b.pending, result)]);
    match result
    case Delivered => Running(b'.(pending := []))
    case Fails(e) =>
      if e == DeliveryFailed && c.discardKafkaDeliveryFailed then Running(b'.(pending := []))
      else Aborted(b', e)
  }

  /** The two policies side by side: with the discard flag a DeliveryFailed
      never escapes, and without it a DeliveryFailed always does. */
  lemma DiscardPolicy(c: Config, broker: nat -> Delivery, b: Batch)
    requires broker(b.attempts) == Fails(DeliveryFailed)
    ensures c.discardKafkaDeliveryFailed <==> DeliverMessages(c, broker, b).Running?
    ensures DeliverMessages(c, broker, b).Aborted? ==> DeliverMessages(c, broker, b).error == DeliveryFailed
  {
  }

  /* ---------------------------------------------------------------------
     One record
     --------------------------------------------------------------------- */

  /** The record exceeds `max_send_limit_bytes`, when that is set. */
  predicate Oversized(c: Config, size: nat) {
    c.maxSendLimitBytes.Some? && size > c.maxSendLimitBytes.value
  }

  /** The flush condition of `write`, with Ruby's precedence: `&&` binds
      tighter than `||`, so the message-count test is not guarded by
      `messages.positive?`. */
  predicate FlushDue(c: Config, messages: int, bytes: int, size: nat) {
    (messages > 0 && bytes + size > c.kafkaAggMaxBytes)
    || (c.kafkaAggMaxMessages.Some? && messages >= c.kafkaAggMaxMessages.value)
  }

  /** `produce2(line, topic:)` followed by the counter updates. */
  function Produce(c: Config, b: Batch, line: string): Batch {
    b.(messages := b.messages + 1,
       bytes := b.bytes + ByteSize(line),
       pending := b.pending + [line],
       trace := b.trace + [Enqueue(line, c.metricsTopic)])
  }

  /** One iteration of the loop of `write` for the filtered `line`. */
  function Step(c: Config, broker: nat -> Delivery, b: Batch, line: Option<string>): (r: Run)
    ensures b.trace <= r.batch.trace && |r.batch.trace| <= |b.trace| + 2
    ensures r.Aborted? ==> broker(b.attempts) == Fails(r.error)
  {
    match line
    case None => Running(b)
    case Some(l) =>
      var size := ByteSize(l);
      if Oversized(c, size) then Running(b)
      else if FlushDue(c, b.messages, b.bytes, size) then
        match DeliverMessages(c, broker, b)
        case Aborted(b', e) => Aborted(b', e)
        case Running(b') => Running(Produce(c, b'.(messages := 0, bytes := 0), l))
      else Running(Produce(c, b, l))
  }

  /* ---------------------------------------------------------------------
     A whole chunk
     --------------------------------------------------------------------- */

  /** The loop over the chunk's lines, stopping at the first exception. */
  function Process(c: Config, broker: nat -> Delivery, lines: seq<Option<string>>): (r: Run)
    ensures |r.batch.trace| <= 2 * |lines|
    decreases |lines|
  {
    if |lines| == 0 then Running(Start)
    else
      match Process(c, broker, lines[..|lines| - 1])
      case Aborted(b, e) => Aborted(b, e)
      case Running(b) => Step(c, broker, b, lines[|lines| - 1])
  }

  /** The body of `write` after the producer is obtained: the loop, then one
      last delivery when messages are left. */
  function WriteBatches(c: Config, broker: nat -> Delivery, lines: seq<Option<string>>): (r: Run)
    ensures Process(c, broker, lines).batch.trace <= r.batch.trace
    ensures |r.batch.trace| <= |Process(c, broker, lines).batch.trace| + 1
  {
    match Process(c, broker, lines)
    case Aborted(b, e) => Aborted(b, e)
    case Running(b) => if b.messages > 0 then DeliverMessages(c, broker, b) else Running(b)
  }

  /* ---------------------------------------------------------------------
     Views of lines and traces
     --------------------------------------------------------------------- */

  /** The lines `write` sends on: not nil and not oversized, in input order. */
  function Accepted(c: Config, lines: seq<Option<string>>): seq<string>
    decreases |lines|
  {
    if |lines| == 0 then []
    else
      var last := lines[|lines| - 1];
      Accepted(c, lines[..|lines| - 1])
      + (if last.Some? && !Oversized(c, ByteSize(last.value)) then [last.value] else [])
  }

  /** Total byte size of a batch. */
  function ByteSum(batch: seq<string>): nat
    decreases |batch|
  {
    if |batch| == 0 then 0 else ByteSum(batch[..|batch| - 1]) + ByteSize(batch[|batch| - 1])
  }

  /** The buffered lines as one text, as `batch.join` would give it. */
  function Text(batch: seq<string>): string
    decreases |batch|
  {
    if |batch| == 0 then "" else Text(batch[..|batch| - 1]) + batch[|batch| - 1]
  }

  /** The byte total of a batch is the `bytesize` of its text. */
  lemma {:induction false} ByteSumIsTextSize(batch: seq<string>)
    ensures ByteSum(batch) == ByteSize(Text(batch))
    decreases |batch|
  {
    if |batch| > 0 {
      var prefix := batch[..|batch| - 1];
      ByteSumIsTextSize(prefix);
      ByteSizeAppend(Text(prefix), batch[|batch| - 1]);
    }
  }

  /** The lines of all deliveries in the trace, in order. */
  function Flushed(t: seq<Event>): seq<string>
    decreases |t|
  {
    if |t| == 0 then []
    else Flushed(t[..|t| - 1]) + (if t[|t| - 1].Flush? then t[|t| - 1].batch else [])
  }

  /** The lines of all deliveries the broker accepted, in order. */
  function DeliveredLines(t: seq<Event>): seq<string>
    decreases |t|
  {
    if |t| == 0 then []
    else
      var e := t[|t| - 1];
      DeliveredLines(t[..|t| - 1]) + (if e.Flush? && e.result.Delivered? then e.batch else [])
  }

  /** The lines handed to `produce2`, in order. */
  function Enqueued(t: seq<Event>): seq<string>
    decreases |t|
  {
    if |t| == 0 then []
    else Enqueued(t[..|t| - 1]) + (if t[|t| - 1].Enqueue? then [t[|t| - 1].line] else [])
  }

  lemma ViewsAppend(t: seq<Event>, e: Event)
    ensures Flushed(t + [e]) == Flushed(t) + (if e.Flush? then e.batch else [])
    ensures DeliveredLines(t + [e]) == DeliveredLines(t) + (if e.Flush? && e.result.Delivered? then e.batch else [])
    ensures Enqueued(t + [e]) == Enqueued(t) + (if e.Enqueue? then [e.line] else [])
  {
    assert (t + [e])[..|t|] == t;
  }

  /** The largest number of lines a delivery may carry under
      `kafka_agg_max_messages = m`: a non-positive `m` forces a delivery
      before every line, so a batch then holds at most one line. */
  function CountBound(m: int): nat {
    if m >= 1 then m else 1
  }

  /** The batch bounds `write` keeps: at most the message limit, and within
      the byte limit unless the batch is a single line. */
  predicate Bounded(c: Config, batch: seq<string>) {
    && (|batch| <= 1 || ByteSum(batch) <= c.kafkaAggMaxBytes)
    && (c.kafkaAggMaxMessages.Some? ==> |batch| <= CountBound(c.kafkaAggMaxMessages.value))
  }

  /** Every delivery in the trace is bounded. */
  predicate AllBounded(c: Config, t: seq<Event>) {
    forall i :: 0 <= i < |t| && t[i].Flush? ==> Bounded(c, t[i].batch)
  }

  /** A message limit of at least one (or none at all) never delivers an
      empty buffer. */
  predicate CountLimitPositive(c: Config) {
    c.kafkaAggMaxMessages.None? || c.kafkaAggMaxMessages.value >= 1
  }

  /** Every delivery in the trace carries at least one line. */
  predicate NoEmptyFlush(t: seq<Event>) {
    forall i :: 0 <= i < |t| && t[i].Flush? ==> |t[i].batch| > 0
  }

  /** The loop invariant of `write` after the accepted lines `acc`: the
      counters track the pending buffer; deliveries and the buffer together
      hold exactly the accepted lines, in order; everything is bounded. */
  predicate Inv(c: Config, b: Batch, acc: seq<string>) {
    && b.messages == |b.pending|
    && b.bytes == ByteSum(b.pending)
    && Flushed(b.trace) + b.pending == acc
    && Enqueued(b.trace) == acc
    && (|acc| > 0 <==> |b.pending| > 0)
    && Bounded(c, b.pending)
    && AllBounded(c, b.trace)
    && (CountLimitPositive(c) ==> NoEmptyFlush(b.trace))
  }

  /** Every delivery in the trace was accepted by the broker or was a
      DeliveryFailed that the discard policy swallowed. */
  predicate PolicyRespected(c: Config, t: seq<Event>) {
    forall i :: 0 <= i < |t| && t[i].Flush? ==> t[i].result == Delivered || Discarded(c, t[i].result)
  }

  /* ---------------------------------------------------------------------
     Properties of one step
     --------------------------------------------------------------------- */

  /** Under the invariant, `messages_bytes` is the `bytesize` of the text
      waiting in the producer's buffer. */
  lemma CounterIsBufferSize(c: Config, b: Batch, acc: seq<string>)
    requires Inv(c, b, acc)
    ensures b.bytes == ByteSize(Text(b.pending))
  {
    ByteSumIsTextSize(b.pending);
  }

  /** A nil or oversized line leaves the loop state, counters included,
      untouched. */
  lemma StepSkips(c: Config, broker: nat -> Delivery, b: Batch, line: Option<string>)
    requires line.None? || Oversized(c, ByteSize(line.value))
    ensures Step(c, broker, b, line) == Running(b)
  {
  }

  /** The flush test on the counters is the flush test on the pending buffer
      the counters track. */
  lemma FlushDueOnBuffer(c: Config, b: Batch, acc: seq<string>, size: nat)
    requires Inv(c, b, acc)
    ensures FlushDue(c, b.messages, b.bytes, size) <==>
      (|b.pending| > 0 && ByteSum(b.pending) + size > c.kafkaAggMaxBytes)
      || (c.kafkaAggMaxMessages.Some? && |b.pending| >= c.kafkaAggMaxMessages.value)
  {
  }

  /** An accepted line is delivered-before exactly when the flush test holds,
      and is then the only line of the new batch; otherwise it joins the
      pending batch. Either way it is enqueued last. */
  lemma StepAccepts(c: Config, broker: nat -> Delivery, b: Batch, l: string)
    requires !Oversized(c, ByteSize(l))
    ensures var r := Step(c, broker, b, Some(l));
      var due := FlushDue(c, b.messages, b.bytes, ByteSize(l));
      && (r.Aborted? ==> due && r.batch.trace == b.trace + [Flush(b.pending, broker(b.attempts))])
      && (r.Running? && due ==>
            && r.batch.trace == b.trace + [Flush(b.pending, broker(b.attempts)), Enqueue(l, c.metricsTopic)]
            && r.batch.pending == [l]
            && r.batch.messages == 1 && r.batch.bytes == ByteSize(l))
      && (!due ==>
            && r.Running?
            && r.batch.trace == b.trace + [Enqueue(l, c.metricsTopic)]
            && r.batch.pending == b.pending + [l]
            && r.batch.messages == b.messages + 1 && r.batch.bytes == b.bytes + ByteSize(l))
  {
  }

  lemma ByteSumAppend(batch: seq<string>, l: string)
    ensures ByteSum(batch + [l]) == ByteSum(batch) + ByteSize(l)
  {
    assert (batch + [l])[..|batch|] == batch;
  }

  /** Appending one event keeps the trace-wide batch facts when the event
      keeps them itself. */
  lemma TraceFactsAppend(c: Config, t: seq<Event>, e: Event)
    requires AllBounded(c, t) && (e.Flush? ==> Bounded(c, e.batch))
    ensures AllBounded(c, t + [e])
    ensures NoEmptyFlush(t) && (e.Flush? ==> |e.batch| > 0) ==> NoEmptyFlush(t + [e])
  {
  }

  /** An accepted line that does not trigger a delivery joins the pending
      batch, and the invariant holds with the line accepted. */
  lemma ProduceKeepsInv(c: Config, b: Batch, acc: seq<string>, l: string)
    requires Inv(c, b, acc)
    requires !Oversized(c, ByteSize(l)) && !FlushDue(c, b.messages, b.bytes, ByteSize(l))
    ensures Inv(c, Produce(c, b, l), acc + [l])
  {
    var e := Enqueue(l, c.metricsTopic);
    ByteSumAppend(b.pending, l);
    ViewsAppend(b.trace, e);
    TraceFactsAppend(c, b.trace, e);
    assert Flushed(b.trace) + (b.pending + [l]) == (Flushed(b.trace) + b.pending) + [l];
  }

  /** The facts a delivery that the policy lets pass leaves behind: an
      empty buffer, counters reset, and every line so far delivered. */
  predicate Emptied(c: Config, b: Batch, acc: seq<string>) {
    && b.pending == [] && b.messages == 0 && b.bytes == 0
    && Flushed(b.trace) == acc
    && Enqueued(b.trace) == acc
    && AllBounded(c, b.trace)
    && (CountLimitPositive(c) ==> NoEmptyFlush(b.trace))
  }

  lemma FlushEmpties(c: Config, broker: nat -> Delivery, b: Batch, acc: seq<string>, size: nat)
    requires Inv(c, b, acc) && FlushDue(c, b.messages, b.bytes, size)
    requires DeliverMessages(c, broker, b).Running?
    ensures Emptied(c, DeliverMessages(c, broker, b).batch.(messages := 0, bytes := 0), acc)
  {
    var f := Flush(b.pending, broker(b.attempts));
    ViewsAppend(b.trace, f);
    TraceFactsAppend(c, b.trace, f);
  }

  lemma ProduceAfterFlush(c: Config, b: Batch, acc: seq<string>, l: string)
    requires Emptied(c, b, acc) && !Oversized(c, ByteSize(l))
    ensures Inv(c, Produce(c, b, l), acc + [l])
  {
    var e := Enqueue(l, c.metricsTopic);
    ViewsAppend(b.trace, e);
    TraceFactsAppend(c, b.trace, e);
    ByteSumAppend([], l);
    assert [] + [l] == [l];
  }

  /** One step keeps the invariant, or aborts with a failure the policy does
      not swallow, after enqueuing nothing more. */
  lemma {:induction false} StepInv(c: Config, broker: nat -> Delivery, b: Batch, acc: seq<string>, line: Option<string>)
    requires Inv(c, b, acc)
    ensures var acc' := acc + (if line.Some? && !Oversized(c, ByteSize(line.value)) then [line.value] else []);
      match Step(c, broker, b, line)
      case Running(b') => Inv(c, b', acc')
      case Aborted(b', e) =>
        && Enqueued(b'.trace) == acc
        && AllBounded(c, b'.trace)
        && |b'.trace| > 0 && b'.trace[|b'.trace| - 1] == Flush(b.pending, Fails(e))
        && !Discarded(c, Fails(e))
  {
    match line
    case None =>
      assert acc + [] == acc;
    case Some(l) =>
      var size := ByteSize(l);
      if Oversized(c, size) {
        assert acc + [] == acc;
      } else if FlushDue(c, b.messages, b.bytes, size) {
        var f := Flush(b.pending, broker(b.attempts));
        if DeliverMessages(c, broker, b).Running? {
          FlushEmpties(c, broker, b, acc, size);
          ProduceAfterFlush(c, DeliverMessages(c, broker, b).batch.(messages := 0, bytes := 0), acc, l);
        } else {
          ViewsAppend(b.trace, f);
          TraceFactsAppend(c, b.trace, f);
        }
      } else {
        ProduceKeepsInv(c, b, acc, l);
      }
  }

  /* ---------------------------------------------------------------------
     Properties of a chunk
     --------------------------------------------------------------------- */

  /** The loop keeps the invariant over the whole chunk; when it aborts, it
      has enqueued a prefix of the accepted lines and the last event is the
      failed delivery. */
  lemma {:induction false} ProcessInv(c: Config, broker: nat -> Delivery, lines: seq<Option<string>>)
    ensures match Process(c, broker, lines)
      case Running(b) => Inv(c, b, Accepted(c, lines))
      case Aborted(b, e) =>
        && Enqueued(b.trace) <= Accepted(c, lines)
        && AllBounded(c, b.trace)
        && |b.trace| > 0 && b.trace[|b.trace| - 1].Flush?
        && b.trace[|b.trace| - 1].result == Fails(e)
        && !Discarded(c, Fails(e))
    decreases |lines|
  {
    if |lines| > 0 {
      var prefix := lines[..|lines| - 1];
      var last := lines[|lines| - 1];
      ProcessInv(c, broker, prefix);
      match Process(c, broker, prefix)
      case Aborted(b, e) =>
      case Running(b) =>
        StepInv(c, broker, b, Accepted(c, prefix), last);
    }
  }

  /** What `write` promises on normal return: every accepted line was
      handed to the broker exactly once, in input order, the producer's
      buffer is empty, and every delivery respects the batch bounds. */
  lemma WriteBatchesSound(c: Config, broker: nat -> Delivery, lines: seq<Option<string>>)
    ensures var r := WriteBatches(c, broker, lines);
      r.Running? ==>
        && Flushed(r.batch.trace) == Accepted(c, lines)
        && Enqueued(r.batch.trace) == Accepted(c, lines)
        && r.batch.pending == []
        && AllBounded(c, r.batch.trace)
        && (CountLimitPositive(c) ==> NoEmptyFlush(r.batch.trace))
        && PolicyRespected(c, r.batch.trace)
  {
    ProcessInv(c, broker, lines);
    ProcessPolicy(c, broker, lines);
    match Process(c, broker, lines)
    case Aborted(_, _) =>
    case Running(b) =>
      if b.messages > 0 {
        var f := Flush(b.pending, broker(b.attempts));
        var d := DeliverMessages(c, broker, b);
        assert WriteBatches(c, broker, lines) == d;
        ViewsAppend(b.trace, f);
        TraceFactsAppend(c, b.trace, f);
        if d.Running? {
          assert d.batch.trace == b.trace + [f];
          assert f.result == Delivered || Discarded(c, f.result);
        }
      }
  }

  /** One step that does not escape adds only deliveries the policy lets
      pass. */
  lemma StepPolicy(c: Config, broker: nat -> Delivery, b: Batch, line: Option<string>)
    requires PolicyRespected(c, b.trace)
    ensures Step(c, broker, b, line).Running? ==> PolicyRespected(c, Step(c, broker, b, line).batch.trace)
  {
    var r := Step(c, broker, b, line);
    if r.Running? && line.Some? && !Oversized(c, ByteSize(line.value))
       && FlushDue(c, b.messages, b.bytes, ByteSize(line.value)) {
      var t := b.trace + [Flush(b.pending, broker(b.attempts))];
      assert r.batch.trace == t + [Enqueue(line.value, c.metricsTopic)];
      assert PolicyRespected(c, t);
    }
  }

  /** The loop, when it does not escape, saw every delivery accepted or
      discarded. */
  lemma {:induction false} ProcessPolicy(c: Config, broker: nat -> Delivery, lines: seq<Option<string>>)
    ensures Process(c, broker, lines).Running? ==> PolicyRespected(c, Process(c, broker, lines).batch.trace)
    decreases |lines|
  {
    if |lines| > 0 {
      var prefix := lines[..|lines| - 1];
      ProcessPolicy(c, broker, prefix);
      match Process(c, broker, prefix)
      case Aborted(_, _) =>
      case Running(b) =>
        StepPolicy(c, broker, b, lines[|lines| - 1]);
    }
  }

  /** When no delivery failed, the delivered lines are the flushed lines. */
  lemma {:induction false} DeliveredWhenNoneFail(t: seq<Event>)
    requires forall i :: 0 <= i < |t| && t[i].Flush? ==> t[i].result == Delivered
    ensures DeliveredLines(t) == Flushed(t)
    decreases |t|
  {
    if |t| > 0 {
      DeliveredWhenNoneFail(t[..|t| - 1]);
    }
  }

  /** Without the discard flag, a normal return means the broker accepted
      every delivery: it received exactly the accepted lines, in order. */
  lemma NoDiscardDeliversAccepted(c: Config, broker: nat -> Delivery, lines: seq<Option<string>>)
    requires !c.discardKafkaDeliveryFailed
    ensures var r := WriteBatches(c, broker, lines);
      r.Running? ==> DeliveredLines(r.batch.trace) == Accepted(c, lines)
  {
    WriteBatchesSound(c, broker, lines);
    var t := WriteBatches(c, broker, lines).batch.trace;
    if WriteBatches(c, broker, lines).Running? {
      forall i | 0 <= i < |t| && t[i].Flush?
        ensures t[i].result == Delivered
      {
        assert !Discarded(c, t[i].result);
      }
      DeliveredWhenNoneFail(t);
    }
  }

  /** The last delivery of `write` happens exactly when at least one line
      was accepted. */
  lemma FinalDelivery(c: Config, broker: nat -> Delivery, lines: seq<Option<string>>)
    requires Process(c, broker, lines).Running?
    ensures var b := Process(c, broker, lines).batch;
      && (b.messages > 0 <==> |Accepted(c, lines)| > 0)
      && WriteBatches(c, broker, lines).batch.trace ==
           b.trace + (if |Accepted(c, lines)| > 0 then [Flush(b.pending, broker(b.attempts))] else [])
  {
    ProcessInv(c, broker, lines);
  }

  /** When an exception escapes, it is a failure the policy does not
      swallow, raised by the last delivery; no accepted line was enqueued
      twice or out of order, and every delivery made, including those that
      reached the broker before the escape, kept within the batch bounds. */
  lemma WriteBatchesAbort(c: Config, broker: nat -> Delivery, lines: seq<Option<string>>)
    ensures var r := WriteBatches(c, broker, lines);
      r.Aborted? ==>
        && !Discarded(c, Fails(r.error))
        && |r.batch.trace| > 0 && r.batch.trace[|r.batch.trace| - 1].Flush?
        && r.batch.trace[|r.batch.trace| - 1].result == Fails(r.error)
        && Enqueued(r.batch.trace) <= Accepted(c, lines)
        && AllBounded(c, r.batch.trace)
  {
    ProcessInv(c, broker, lines);
    match Process(c, broker, lines)
    case Aborted(_, _) =>
    case Running(b) =>
      if b.messages > 0 {
        ViewsAppend(b.trace, Flush(b.pending, broker(b.attempts)));
        TraceFactsAppend(c, b.trace, Flush(b.pending, broker(b.attempts)));
      }
  }

  /** With a broker that accepts every delivery, nothing escapes and the
      broker receives exactly the accepted lines, in order. */
  lemma {:induction false} AllDelivered(c: Config, broker: nat -> Delivery, lines: seq<Option<string>>)
    requires forall k :: broker(k) == Delivered
    ensures WriteBatches(c, broker, lines).Running?
    ensures DeliveredLines(WriteBatches(c, broker, lines).batch.trace) == Accepted(c, lines)
  {
    DeliveredIsFlushed(c, broker, lines);
    WriteBatchesSound(c, broker, lines);
    match Process(c, broker, lines)
    case Running(b) =>
      if b.messages > 0 {
        ViewsAppend(b.trace, Flush(b.pending, broker(b.attempts)));
      }
  }

  lemma {:induction false} DeliveredIsFlushed(c: Config, broker: nat -> Delivery, lines: seq<Option<string>>)
    requires forall k :: broker(k) == Delivered
    ensures Process(c, broker, lines).Running?
    ensures DeliveredLines(Process(c, broker, lines).batch.trace) == Flushed(Process(c, broker, lines).batch.trace)
    decreases |lines|
  {
    if |lines| > 0 {
      var prefix := lines[..|lines| - 1];
      DeliveredIsFlushed(c, broker, prefix);
      var b := Process(c, broker, prefix).batch;
      var l := lines[|lines| - 1];
      if l.Some? && !Oversized(c, ByteSize(l.value)) {
        if FlushDue(c, b.messages, b.bytes, ByteSize(l.value)) {
          var f := Flush(b.pending, Delivered);
          ViewsAppend(b.trace, f);
          ViewsAppend(b.trace + [f], Enqueue(l.value, c.metricsTopic));
        } else {
          ViewsAppend(b.trace, Enqueue(l.value, c.metricsTopic));
        }
      }
    }
  }

  /** With `kafka_agg_max_messages` at zero or below, the count test always
      holds, so a delivery, possibly of an empty buffer, precedes every
      enqueued line. */
  lemma NonPositiveCountFlushesEveryLine(c: Config, broker: nat -> Delivery, b: Batch, l: string)
    requires c.kafkaAggMaxMessages.Some? && c.kafkaAggMaxMessages.value <= 0
    requires b.messages >= 0 && !Oversized(c, ByteSize(l))
    ensures var r := Step(c, broker, b, Some(l));
      |r.batch.trace| == |b.trace| + (if r.Running? then 2 else 1)
      && r.batch.trace[|b.trace|] == Flush(b.pending, broker(b.attempts))
  {
  }
}

=== FILE: deis.dfy ===
/** The Deis mixin: recognising records emitted by the Deis router
    container, extracting the request metrics from a router log line and
    turning them into three tagged time-series points. */
module Deis {
  import opened Wrappers
  import opened RubyString

  /* ---------------------------------------------------------------------
     Records
     --------------------------------------------------------------------- */

  /** The `kubernetes` sub-hash of a record; a missing key reads as `nil`. */
  datatype Kubernetes = Kubernetes(containerName: Option<string>, host: Option<string>)

  /** An inbound Fluentd record: its `kubernetes` and `log` entries. */
  datatype Message = Message(kubernetes: Option<Kubernetes>, log: Option<string>)

  /** The container-name pattern of the Deis router. */
  const RouterContainer: string := "deis-router"

  /* ---------------------------------------------------------------------
     Metrics and points
     --------------------------------------------------------------------- */

  /** The number Ruby's `String#to_f` reads from `text`. Float parsing is not
      modelled: the number is kept as the text it comes from. */
  datatype Num = ToF(text: string)

  /** The hash `parse_router_log` returns. */
  datatype Metric = Metric(
    app: string,
    statusCode: string,
    bytesSent: Num,
    responseTime: Num,
    requestTime: Num,
    host: Option<string>)

  /** The tag hash shared by the three points of one metric, in the order
      `app`, `status_code`, `host`. */
  datatype Tags = Tags(app: string, statusCode: string, host: Option<string>)

  /** One time-series point: series name, its single `value`, its tags. */
  datatype Point = Point(series: string, value: Num, tags: Tags)

  const RequestTimeSeries: string := "deis_router_request_time_ms"
  const ResponseTimeSeries: string := "deis_router_response_time_ms"
  const BytesSentSeries: string := "deis_router_bytes_sent"

  /** The separator between the fields of a router log line. */
  const FieldSeparator: string := " - "

  /** The fewest fields a router log line may have. */
  const MinFields: nat := 14

  /* ---------------------------------------------------------------------
     Origin checks
     --------------------------------------------------------------------- */

  /** `kubernetes?`: the record carries a `kubernetes` entry. */
  predicate IsKubernetes(m: Message) {
    m.kubernetes.Some?
  }

  /** `from_container?` for a pattern without regular-expression
      metacharacters: the record has Kubernetes metadata and its container
      name contains `pattern`. A `nil` container name never matches. */
  predicate FromContainer(m: Message, pattern: string) {
    IsKubernetes(m)
    && m.kubernetes.value.containerName.Some?
    && Contains(m.kubernetes.value.containerName.value, pattern)
  }

  /** `from_router?`. */
  predicate FromRouter(m: Message) {
    FromContainer(m, RouterContainer)
  }

  /** The record comes from the router exactly when it has Kubernetes
      metadata whose container name contains "deis-router" somewhere. */
  lemma FromRouterIff(m: Message)
    ensures FromRouter(m) <==>
      m.kubernetes.Some? && m.kubernetes.value.containerName.Some?
      && exists i :: 0 <= i <= |m.kubernetes.value.containerName.value| - |RouterContainer|
           && MatchAt(m.kubernetes.value.containerName.value, RouterContainer, i)
  {
    if m.kubernetes.Some? && m.kubernetes.value.containerName.Some? {
      ContainsIff(m.kubernetes.value.containerName.value, RouterContainer);
    }
  }

  /* ---------------------------------------------------------------------
     parse_router_log
     --------------------------------------------------------------------- */

  /** The metric at the fixed field positions of an already split line. */
  function MetricOfFields(fs: seq<string>, host: Option<string>): Metric
    requires |fs| >= MinFields
  {
    Metric(
      app := Strip(fs[1]),
      statusCode := Strip(fs[4]),
      bytesSent := ToF(Strip(fs[6])),
      responseTime := ToF(Strip(fs[12])),
      requestTime := ToF(Strip(fs[13])),
      host := host)
  }

  /** `parse_router_log(log, host)`. A `nil` log makes `split` raise
      NoMethodError, which the method rescues into `nil`; no other step can
      raise, so the method never raises. */
  function ParseRouterLog(log: Option<string>, host: Option<string>): (r: Option<Metric>)
    ensures r.Some? <==> log.Some? && |Split(log.value, FieldSeparator)| >= MinFields
    ensures r.Some? ==> r.value.host == host
    ensures r.Some? ==> r.value == MetricOfFields(Split(log.value, FieldSeparator), host)
  {
    match log
    case None => None
    case Some(line) =>
      var fs := Split(line, FieldSeparator);
      if |fs| < MinFields then None else Some(MetricOfFields(fs, host))
  }

  /** Round trip: a line assembled from at least fourteen separable fields
      (the last one non-empty) parses to the metric at the fixed positions of
      those fields; every field past index 13 is ignored. */
  lemma {:induction false} ParseJoined(fs: seq<string>, host: Option<string>)
    requires |fs| >= MinFields && fs[|fs| - 1] != []
    requires forall k :: 0 <= k < |fs| ==> Separable(fs[k], FieldSeparator)
    ensures ParseRouterLog(Some(Join(fs, FieldSeparator)), host) == Some(MetricOfFields(fs, host))
  {
    SplitAllJoin(fs, FieldSeparator);
  }

  /** A line whose fourteenth field is empty and last is rejected: Ruby's
      `split` drops the trailing empty field, leaving thirteen. */
  lemma {:induction false} ParseRejectsEmptyLastField(fs: seq<string>, host: Option<string>)
    requires |fs| == MinFields && fs[MinFields - 1] == []
    requires forall k :: 0 <= k < |fs| ==> Separable(fs[k], FieldSeparator)
    ensures ParseRouterLog(Some(Join(fs, FieldSeparator)), host) == None
  {
    SplitAllJoin(fs, FieldSeparator);
    assert DropTrailingEmpty(fs) == DropTrailingEmpty(fs[..MinFields - 1]);
  }

  /** The host never comes from the line: parsing the same line for two
      hosts differs in the host alone. */
  lemma ParseHostIndependent(log: Option<string>, h1: Option<string>, h2: Option<string>)
    ensures ParseRouterLog(log, h1).Some? <==> ParseRouterLog(log, h2).Some?
    ensures ParseRouterLog(log, h1).Some? ==>
      ParseRouterLog(log, h2) == Some(ParseRouterLog(log, h1).value.(host := h2))
  {
  }

  /* ---------------------------------------------------------------------
     build_series
     --------------------------------------------------------------------- */

  /** The three points of one metric, in emission order. */
  function SeriesOf(m: Metric): seq<Point> {
    var tags := Tags(m.app, m.statusCode, m.host);
    [ Point(RequestTimeSeries, m.requestTime, tags),
      Point(ResponseTimeSeries, m.responseTime, tags),
      Point(BytesSentSeries, m.bytesSent, tags) ]
  }

  /** Reads a metric back from its three points by series name, an
      independent inverse of `SeriesOf`. */
  function MetricOfSeries(ps: seq<Point>): Option<Metric> {
    if |ps| == 3
       && ps[0].series == RequestTimeSeries
       && ps[1].series == ResponseTimeSeries
       && ps[2].series == BytesSentSeries
       && ps[0].tags == ps[1].tags == ps[2].tags
    then
      var t := ps[0].tags;
      Some(Metric(t.app, t.statusCode, ps[2].value, ps[1].value, ps[0].value, t.host))
    else None
  }

  /** The three points lose nothing: the metric can be read back from them. */
  lemma SeriesRoundTrip(m: Metric)
    ensures MetricOfSeries(SeriesOf(m)) == Some(m)
  {
  }

  /** `build_series(message)`. Reading `message['kubernetes']['host']` raises
      NoMethodError when the record has no `kubernetes` entry; the method
      does not rescue it. Otherwise it returns `nil` exactly when parsing
      fails, and points from which the parsed metric can be read back. */
  function BuildSeries(m: Message): (r: Outcome<Option<seq<Point>>>)
    ensures r.Raised? <==> m.kubernetes.None?
    ensures r.Raised? ==> r.error == NoMethodError
    ensures r.Returned? ==>
      (r.value.Some? <==> ParseRouterLog(m.log, m.kubernetes.value.host).Some?)
    ensures r.Returned? && r.value.Some? ==>
      MetricOfSeries(r.value.value) == ParseRouterLog(m.log, m.kubernetes.value.host)
  {
    match m.kubernetes
    case None => Raised(NoMethodError)
    case Some(k) =>
      match ParseRouterLog(m.log, k.host)
      case None => Returned(None)
      case Some(metric) =>
        SeriesRoundTrip(metric);
        Returned(Some(SeriesOf(metric)))
  }

  /** The points of a metric: three of them, in the order request time,
      response time, bytes sent, all sharing the tags `app`, `status_code`,
      `host` of the metric. */
  lemma SeriesShape(m: Metric)
    ensures var ps := SeriesOf(m);
      && |ps| == 3
      && ps[0] == Point(RequestTimeSeries, m.requestTime, ps[0].tags)
      && ps[1] == Point(ResponseTimeSeries, m.responseTime, ps[0].tags)
      && ps[2] == Point(BytesSentSeries, m.bytesSent, ps[0].tags)
      && ps[0].tags == Tags(m.app, m.statusCode, m.host)
  {
  }

  /** `build_series` returns nil exactly when parsing fails; otherwise its
      points carry exactly the parsed metric. */
  lemma BuildSeriesCarriesMetric(m: Message)
    requires m.kubernetes.Some?
    ensures var r := BuildSeries(m);
      var p := ParseRouterLog(m.log, m.kubernetes.value.host);
      && r.Returned?
      && (r.value.None? <==> p.None?)
      && (r.value.Some? ==> MetricOfSeries(r.value.value) == p)
  {
  }
}

=== FILE: deis_vector.dfy ===
/** The router log line of the plugin's own test suite, parsed by the model. */
module DeisVector {
  import opened Wrappers
  import opened RubyString
  import opened Deis

  /** The fourteen fields of the `log` entry of the test suite's valid router
      record, trailing newline included. Each run `" - - - "` in the line
      yields a field `"-"`, because matches are taken left to right without
      overlap. */
  const RouterFields: seq<string> := [
    "[2016-05-31T16:56:12+00:00]", "foo", "10.2.1.1", "-", "200",
    "\"GET / HTTP/1.0\"", "211", "-", "\"ApacheBench/2.3\"",
    "\"~^foo\\x5C.(?<domain>.+)$\"", "10.1.1.4:80", "foo.bar.io", "0.002", "0.046\n"]

  /** The test line itself: its fields joined by the separator. */
  const RouterLine: string := Join(RouterFields, FieldSeparator)

  /** Every field of the test line is separable by `" - "`: none ends in a
      space and no space in it is followed by a dash. */
  lemma FieldSeparable(k: nat)
    requires k < |RouterFields|
    ensures Separable(RouterFields[k], FieldSeparator)
  {
    match k
    case 0 =>
      assert RouterFields[0] == "[2016-05-31T16:56:12+00:00]";
      SeparableWhenLeadAbsent("[2016-05-31T16:56:12+00:00]", FieldSeparator);
    case 1 =>
      assert RouterFields[1] == "foo";
      SeparableWhenLeadAbsent("foo", FieldSeparator);
    case 2 =>
      assert RouterFields[2] == "10.2.1.1";
      SeparableWhenLeadAbsent("10.2.1.1", FieldSeparator);
    case 3 =>
      assert RouterFields[3] == "-";
      SeparableWhenLeadAbsent("-", FieldSeparator);
    case 4 =>
      assert RouterFields[4] == "200";
      SeparableWhenLeadAbsent("200", FieldSeparator);
    case 5 =>
      assert RouterFields[5] == "\"GET / HTTP/1.0\"";
      RequestFieldSeparable();
    case 6 =>
      assert RouterFields[6] == "211";
      SeparableWhenLeadAbsent("211", FieldSeparator);
    case 7 =>
      assert RouterFields[7] == "-";
      SeparableWhenLeadAbsent("-", FieldSeparator);
    case 8 =>
      assert RouterFields[8] == "\"ApacheBench/2.3\"";
      SeparableWhenLeadAbsent("\"ApacheBench/2.3\"", FieldSeparator);
    case 9 =>
      assert RouterFields[9] == "\"~^foo\\x5C.(?<domain>.+)$\"";
      SeparableWhenLeadAbsent("\"~^foo\\x5C.(?<domain>.+)$\"", FieldSeparator);
    case 10 =>
      assert RouterFields[10] == "10.1.1.4:80";
      SeparableWhenLeadAbsent("10.1.1.4:80", FieldSeparator);
    case 11 =>
      assert RouterFields[11] == "foo.bar.io";
      SeparableWhenLeadAbsent("foo.bar.io", FieldSeparator);
    case 12 =>
      assert RouterFields[12] == "0.002";
      SeparableWhenLeadAbsent("0.002", FieldSeparator);
    case 13 =>
      assert RouterFields[13] == "0.046\n";
      SeparableWhenLeadAbsent("0.046\n", FieldSeparator);
  }

  /** The one field with spaces: each is followed by a character other
      than the dash. */
  lemma RequestFieldSeparable()
    ensures Separable("\"GET / HTTP/1.0\"", FieldSeparator)
  {
    var f := "\"GET / HTTP/1.0\"";
    assert StartSafeFrom(f, FieldSeparator, 12);
    assert StartSafeFrom(f, FieldSeparator, 8);
    assert StartSafeFrom(f, FieldSeparator, 4);
    SeparableWhenStartSafe(f, FieldSeparator);
  }

  lemma RouterFieldsSeparable()
    ensures forall k :: 0 <= k < |RouterFields| ==> Separable(RouterFields[k], FieldSeparator)
  {
    forall k | 0 <= k < |RouterFields| {
      FieldSeparable(k);
    }
  }

  lemma RouterLineFields()
    ensures Split(RouterLine, FieldSeparator) == RouterFields
  {
    RouterFieldsSeparable();
    SplitAllJoin(RouterFields, FieldSeparator);
  }

  /** The five fields the parser reads. */
  lemma ReadFields()
    ensures RouterFields[1] == "foo" && RouterFields[4] == "200" && RouterFields[6] == "211"
    ensures RouterFields[12] == "0.002" && RouterFields[13] == "0.046\n"
  {
  }

  /* `strip` of the five fields read: only the last one changes, losing its
     newline. One lemma per literal keeps each evaluation small. */
  lemma StripFoo() ensures Strip("foo") == "foo" { StripTrimmed("foo"); }
  lemma Strip200() ensures Strip("200") == "200" { StripTrimmed("200"); }
  lemma Strip211() ensures Strip("211") == "211" { StripTrimmed("211"); }
  lemma Strip0002() ensures Strip("0.002") == "0.002" { StripTrimmed("0.002"); }
  lemma Strip0046() ensures Strip("0.046\n") == "0.046" {
    var f := "0.046\n";
    assert f == "0.046" + "\n";
    assert LStrip(f) == f;
    assert f[..|f| - 1] == "0.046";
    StripTrimmed("0.046");
  }

  /** A line that splits into the test fields parses, for any host, to app
      "foo", status "200", bytes sent "211", response time "0.002" and request
      time "0.046". */
  lemma RouterFieldsParse(line: string, host: Option<string>)
    requires Split(line, FieldSeparator) == RouterFields
    ensures ParseRouterLog(Some(line), host) ==
      Some(Metric("foo", "200", ToF("211"), ToF("0.002"), ToF("0.046"), host))
  {
    ReadFields();
    StripFoo();
    Strip200();
    Strip211();
    Strip0002();
    Strip0046();
  }

  /** The test suite's expectation: the test line with host "some.new.host". */
  lemma RouterLineParses()
    ensures ParseRouterLog(Some(RouterLine), Some("some.new.host")) ==
      Some(Metric("foo", "200", ToF("211"), ToF("0.002"), ToF("0.046"), Some("some.new.host")))
  {
    RouterLineFields();
    RouterFieldsParse(RouterLine, Some("some.new.host"));
  }
}

=== FILE: out_deis.dfy ===
/** The Deis output plugin: `filter_record`, `refresh_client` and `write`
    with its recovery path, over the mixin, the producer pool and the
    batching loop.

    InfluxDB's line-protocol `dump` of a point is a parameter (`None` when it
    raises); whether `Kafka.new` succeeds is the flag `connects`. */
module OutDeis {
  import opened Wrappers
  import opened RubyString
  import opened Deis
  import opened PluginConfig
  import opened ProducerPool
  import opened Batcher

  /** `InfluxDB::PointValue.new(point).dump`; `None` when it raises. */
  type Dumper = Point -> Option<string>

  /** The separator between the dumped points of one record. */
  const LineSeparator: string := "\n"

  /* ---------------------------------------------------------------------
     filter_record
     --------------------------------------------------------------------- */

  /** The dumps of all points, in order, or `None` as soon as one raises. */
  function DumpAll(ps: seq<Point>, dump: Dumper): (r: Option<seq<string>>)
    ensures r.Some? <==> forall i :: 0 <= i < |ps| ==> dump(ps[i]).Some?
    ensures r.Some? ==> |r.value| == |ps| && forall i :: 0 <= i < |ps| ==> r.value[i] == dump(ps[i]).value
    decreases |ps|
  {
    if |ps| == 0 then Some([])
    else
      match (DumpAll(ps[..|ps| - 1], dump), dump(ps[|ps| - 1]))
      case (Some(ds), Some(d)) => Some(ds + [d])
      case _ => None
  }

  /** The points of a record that comes from the router and parses. */
  function RouterPoints(m: Message): Option<seq<Point>> {
    if !FromRouter(m) then None
    else
      match ParseRouterLog(m.log, m.kubernetes.value.host)
      case None => None
      case Some(metric) => Some(SeriesOf(metric))
  }

  /** `filter_record(record)`: nothing for records not from the router or
      whose log does not parse; otherwise the dumps of the three points
      joined by newlines. A raising dump is rescued into nil. */
  function FilterRecord(m: Message, dump: Dumper): (r: Option<string>)
    ensures r.Some? <==> RouterPoints(m).Some? && DumpAll(RouterPoints(m).value, dump).Some?
    ensures r.Some? ==> r.value == Join(DumpAll(RouterPoints(m).value, dump).value, LineSeparator)
  {
    if !FromRouter(m) then None
    else
      match BuildSeries(m)
      case Raised(_) => None
      case Returned(None) => None
      case Returned(Some(points)) =>
        match DumpAll(points, dump)
        case None => None
        case Some(ds) => Some(Join(ds, LineSeparator))
  }

  /** No dump that succeeds contains a newline. */
  ghost predicate NewlineFree(dump: Dumper) {
    forall p: Point :: dump(p).Some? ==> '\n' !in dump(p).value
  }

  /** Lines without newlines are recovered by splitting their join. */
  lemma JoinedLinesSplit(ds: seq<string>)
    requires |ds| >= 1 && forall k :: 0 <= k < |ds| ==> '\n' !in ds[k]
    ensures SplitAll(Join(ds, LineSeparator), LineSeparator) == ds
  {
    forall k | 0 <= k < |ds|
      ensures Separable(ds[k], LineSeparator)
    {
      SeparableByChar(ds[k], '\n');
    }
    SplitAllJoin(ds, LineSeparator);
  }

  /** The dumped lines can be read back from the filtered record when no
      dump contains a newline: splitting it on newlines gives the dumps. */
  lemma FilterRecordLines(m: Message, dump: Dumper)
    requires FilterRecord(m, dump).Some? && NewlineFree(dump)
    ensures SplitAll(FilterRecord(m, dump).value, LineSeparator) == DumpAll(RouterPoints(m).value, dump).value
  {
    var ps := RouterPoints(m).value;
    var ds := DumpAll(ps, dump).value;
    forall k | 0 <= k < |ds|
      ensures '\n' !in ds[k]
    {
      assert ds[k] == dump(ps[k]).value;
    }
    JoinedLinesSplit(ds);
  }

  /** Joining three lines puts the separator between each pair. */
  lemma JoinThree(ds: seq<string>, sep: string)
    requires |ds| == 3
    ensures Join(ds, sep) == ds[0] + sep + ds[1] + sep + ds[2]
  {
    assert ds[1..][1..] == ds[2..];
    assert Join(ds[1..], sep) == ds[1] + sep + ds[2];
    assert ds[0] + sep + (ds[1] + sep + ds[2]) == ds[0] + sep + ds[1] + sep + ds[2];
  }

  /** Three points dump exactly when each of them does. */
  lemma DumpAllThree(ps: seq<Point>, dump: Dumper)
    requires |ps| == 3
    ensures DumpAll(ps, dump).Some? <==> dump(ps[0]).Some? && dump(ps[1]).Some? && dump(ps[2]).Some?
  {
    if dump(ps[0]).Some? && dump(ps[1]).Some? && dump(ps[2]).Some? {
      forall i | 0 <= i < |ps|
        ensures dump(ps[i]).Some?
      {
        if i == 0 {
        } else if i == 1 {
        } else {
          assert i == 2;
        }
      }
    }
  }

  /** For a router record whose log parses to `metric`, the filtered line is
      the dumps of the request-time, response-time and bytes-sent points,
      in that order, separated by newlines; if any dump raises there is no
      line. */
  lemma FilterRecordDumps(m: Message, dump: Dumper, metric: Metric)
    requires FromRouter(m) && ParseRouterLog(m.log, m.kubernetes.value.host) == Some(metric)
    ensures var tags := Tags(metric.app, metric.statusCode, metric.host);
      var d0 := dump(Point(RequestTimeSeries, metric.requestTime, tags));
      var d1 := dump(Point(ResponseTimeSeries, metric.responseTime, tags));
      var d2 := dump(Point(BytesSentSeries, metric.bytesSent, tags));
      FilterRecord(m, dump) ==
        if d0.Some? && d1.Some? && d2.Some?
        then Some(d0.value + LineSeparator + d1.value + LineSeparator + d2.value)
        else None
  {
    var ps := SeriesOf(metric);
    SeriesShape(metric);
    assert RouterPoints(m) == Some(ps);
    DumpAllThree(ps, dump);
    var r := DumpAll(ps, dump);
    if r.Some? {
      JoinThree(r.value, LineSeparator);
    }
  }

  /** Records outside the router never produce a line, and a record from the
      router produces one exactly when its log parses and every dump
      succeeds. */
  lemma FilterRecordRouterOnly(m: Message, dump: Dumper)
    ensures !FromRouter(m) ==> FilterRecord(m, dump).None?
    ensures FromRouter(m) ==>
      (FilterRecord(m, dump).Some? <==>
        && ParseRouterLog(m.log, m.kubernetes.value.host).Some?
        && forall i :: 0 <= i < 3 ==>
             dump(SeriesOf(ParseRouterLog(m.log, m.kubernetes.value.host).value)[i]).Some?)
  {
    if FromRouter(m) {
      match ParseRouterLog(m.log, m.kubernetes.value.host)
      case None =>
        assert RouterPoints(m).None?;
      case Some(metric) =>
        var ps := SeriesOf(metric);
        assert RouterPoints(m) == Some(ps);
        assert |ps| == 3;
    }
  }

  /* ---------------------------------------------------------------------
     refresh_client
     --------------------------------------------------------------------- */

  /** The client `Kafka.new` builds: the comma-separated brokers as seed
      brokers, and the client id. */
  function NewClient(c: Config): Client {
    Client(Split(c.brokers, ","), c.clientId)
  }

  /** `refresh_client(raise_error)`: on success `@kafka` is the new client;
      on failure the error is re-raised when `raise_error` holds, and
      otherwise swallowed with `@kafka` left as it was. */
  function RefreshClient(c: Config, kafka: Option<Client>, raiseError: bool, connects: bool): (r: Outcome<Option<Client>>)
    ensures r.Raised? <==> !connects && raiseError
    ensures r.Raised? ==> r.error == ClientInitError
    ensures r.Returned? && connects ==> r.value == Some(NewClient(c))
    ensures r.Returned? && !connects ==> r.value == kafka
  {
    if connects then Returned(Some(NewClient(c)))
    else if raiseError then Raised(ClientInitError)
    else Returned(kafka)
  }

  /** Brokers written as a comma-separated list of non-empty names without
      commas become exactly those seed brokers. */
  lemma {:induction false} SeedBrokersRoundTrip(c: Config, hosts: seq<string>)
    requires |hosts| >= 1 && c.brokers == Join(hosts, ",")
    requires forall i :: 0 <= i < |hosts| ==> hosts[i] != []
    requires forall i, k :: 0 <= i < |hosts| && 0 <= k < |hosts[i]| ==> hosts[i][k] != ','
    ensures NewClient(c).seedBrokers == hosts
  {
    forall i | 0 <= i < |hosts|
      ensures Separable(hosts[i], ",")
    {
      SeparableByChar(hosts[i], ',');
    }
    SplitAllJoin(hosts, ",");
    assert DropTrailingEmpty(hosts) == hosts;
  }

  /* ---------------------------------------------------------------------
     write
     --------------------------------------------------------------------- */

  /** The plugin's mutable state: `@kafka` and the producer pool. */
  datatype Plugin = Plugin(kafka: Option<Client>, pool: Pool)

  /** What one `write` call leaves behind: the new plugin state, the events
      on the producer, the handles shut down by a recovery, and the
      exception `write` raises, if any. */
  datatype WriteResult = WriteResult(
    plugin: Plugin,
    trace: seq<Event>,
    shutDown: seq<Handle>,
    raised: Option<Exception>)

  /** The filtered line of every record of the chunk, in order. */
  function Lines(records: seq<Message>, dump: Dumper): (ls: seq<Option<string>>)
    ensures |ls| == |records|
    ensures forall i :: 0 <= i < |records| ==> ls[i] == FilterRecord(records[i], dump)
  {
    seq(|records|, i requires 0 <= i < |records| => FilterRecord(records[i], dump))
  }

  /** The `rescue` of `write`: shut down and forget every producer, rebuild
      the client without raising, and re-raise `e`. */
  function Recover(c: Config, p: Plugin, trace: seq<Event>, e: Exception, connects: bool): (r: WriteResult)
    ensures r.raised == Some(e)
    ensures r.plugin.pool.producers == map[]
    ensures r.shutDown == ShutdownProducers(p.pool).shutDown
    ensures r.plugin.kafka == (if connects then Some(NewClient(c)) else p.kafka)
    ensures r.trace == trace
  {
    var sweep := ShutdownProducers(p.pool);
    var kafka := RefreshClient(c, p.kafka, false, connects).value;
    WriteResult(Plugin(kafka, sweep.pool), trace, sweep.shutDown, Some(e))
  }

  /** `write(chunk)` on thread `tid`: get the thread's producer, run the
      batching loop over the filtered records, and recover from anything
      that escapes. */
  function Write(c: Config, p: Plugin, tid: int, records: seq<Message>, dump: Dumper,
                 broker: nat -> Delivery, connects: bool): (r: WriteResult)
    ensures r.raised.None? ==>
      && r.plugin.kafka == p.kafka
      && r.shutDown == []
      && tid in r.plugin.pool.producers
    ensures r.raised.Some? ==>
      && r.plugin.pool.producers == map[]
      && r.plugin.kafka == (if connects then Some(NewClient(c)) else p.kafka)
  {
    match GetProducer(p.pool, p.kafka, ProducerOptsOf(c), tid)
    case Raised(e) => Recover(c, p, [], e, connects)
    case Returned(g) =>
      var p' := p.(pool := g.pool);
      match WriteBatches(c, broker, Lines(records, dump))
      case Running(b) => WriteResult(p', b.trace, [], None)
      case Aborted(b, e) => Recover(c, p', b.trace, e, connects)
  }

  /** `write` raises exactly when no producer can be had or the batching
      loop lets a delivery failure escape, and then re-raises that same
      exception after sweeping the pool it was using. */
  lemma WriteRaisesWhat(c: Config, p: Plugin, tid: int, records: seq<Message>, dump: Dumper,
                        broker: nat -> Delivery, connects: bool)
    ensures var r := Write(c, p, tid, records, dump, broker, connects);
      var g := GetProducer(p.pool, p.kafka, ProducerOptsOf(c), tid);
      && (g.Raised? ==> r.raised == Some(NoMethodError) && r.trace == [] && r.shutDown == ShutdownProducers(p.pool).shutDown)
      && (g.Returned? ==>
            var w := WriteBatches(c, broker, Lines(records, dump));
            && r.trace == w.batch.trace
            && (r.raised.Some? <==> w.Aborted?)
            && (w.Aborted? ==> r.raised == Some(w.error) && r.shutDown == ShutdownProducers(g.value.pool).shutDown))
  {
  }

  /** On normal return every accepted line was handed to exactly one
      delivery, in order, within the batch bounds, and every delivery was
      accepted or a discarded DeliveryFailed; without the discard flag the
      broker therefore received exactly the accepted lines. After an escape
      the exception is one the discard policy does not swallow. Whatever
      the outcome, every delivery made kept within the batch bounds. */
  lemma WriteDeliversAccepted(c: Config, p: Plugin, tid: int, records: seq<Message>, dump: Dumper,
                              broker: nat -> Delivery, connects: bool)
    ensures var r := Write(c, p, tid, records, dump, broker, connects);
      r.raised.None? ==>
        && Flushed(r.trace) == Accepted(c, Lines(records, dump))
        && Enqueued(r.trace) == Accepted(c, Lines(records, dump))
        && AllBounded(c, r.trace)
        && PolicyRespected(c, r.trace)
    ensures var r := Write(c, p, tid, records, dump, broker, connects);
      r.raised.None? && !c.discardKafkaDeliveryFailed ==>
        DeliveredLines(r.trace) == Accepted(c, Lines(records, dump))
    ensures var r := Write(c, p, tid, records, dump, broker, connects);
      r.raised.Some? && r.trace != [] ==> !Discarded(c, Fails(r.raised.value))
    ensures AllBounded(c, Write(c, p, tid, records, dump, broker, connects).trace)
  {
    WriteBatchesSound(c, broker, Lines(records, dump));
    WriteBatchesAbort(c, broker, Lines(records, dump));
    if !c.discardKafkaDeliveryFailed {
      NoDiscardDeliversAccepted(c, broker, Lines(records, dump));
    }
  }

  /** The pool `write` sweeps when it recovers: the pool it started with
      when no producer could be had, otherwise the pool holding the
      producer it used. */
  function PoolInUse(c: Config, p: Plugin, tid: int): Pool {
    var g := GetProducer(p.pool, p.kafka, ProducerOptsOf(c), tid);
    if g.Raised? then p.pool else g.value.pool
  }

  /** A recovery sweeps the pool in use; a normal return keeps it. */
  lemma WritePool(c: Config, p: Plugin, tid: int, records: seq<Message>, dump: Dumper,
                  broker: nat -> Delivery, connects: bool)
    ensures var r := Write(c, p, tid, records, dump, broker, connects);
      && (r.raised.None? ==> r.plugin.pool == PoolInUse(c, p, tid))
      && (r.raised.Some? ==>
            r.plugin.pool == ShutdownProducers(PoolInUse(c, p, tid)).pool
            && r.shutDown == ShutdownProducers(PoolInUse(c, p, tid)).shutDown)
  {
  }

  /** A valid pool stays valid across `write`. */
  lemma WriteKeepsPoolValid(c: Config, p: Plugin, tid: int, records: seq<Message>, dump: Dumper,
                            broker: nat -> Delivery, connects: bool)
    requires Valid(p.pool)
    ensures Valid(Write(c, p, tid, records, dump, broker, connects).plugin.pool)
  {
    GetProducerValid(p.pool, p.kafka, ProducerOptsOf(c), tid);
    var q := PoolInUse(c, p, tid);
    assert Valid(q);
    WritePool(c, p, tid, records, dump, broker, connects);
    SweepThenGetIsFresh(q, None, ProducerOptsOf(c), tid);
  }

  /** After a recovery, the next `write` on any thread works with a new
      handle, never one that was shut down. */
  lemma WriteRecoveryFresh(c: Config, p: Plugin, tid: int, records: seq<Message>, dump: Dumper,
                           broker: nat -> Delivery, connects: bool, tid': int)
    requires Valid(p.pool)
    ensures var r := Write(c, p, tid, records, dump, broker, connects);
      r.raised.Some? ==>
        var g := GetProducer(r.plugin.pool, r.plugin.kafka, ProducerOptsOf(c), tid');
        g.Returned? ==> g.value.producer !in r.shutDown
  {
    GetProducerValid(p.pool, p.kafka, ProducerOptsOf(c), tid);
    var q := PoolInUse(c, p, tid);
    assert Valid(q);
    WritePool(c, p, tid, records, dump, broker, connects);
    var r := Write(c, p, tid, records, dump, broker, connects);
    SweepThenGetIsFresh(q, r.plugin.kafka, ProducerOptsOf(c), tid');
  }

  /** With a client, a broker that accepts everything and nothing to fail,
      `write` returns normally and the broker receives exactly the filtered
      router lines within the size limit, in record order. */
  lemma WriteAllDelivered(c: Config, p: Plugin, tid: int, records: seq<Message>, dump: Dumper,
                          broker: nat -> Delivery, connects: bool)
    requires p.kafka.Some? || tid in p.pool.producers
    requires forall k :: broker(k) == Delivered
    ensures var r := Write(c, p, tid, records, dump, broker, connects);
      r.raised.None? && DeliveredLines(r.trace) == Accepted(c, Lines(records, dump))
  {
    AllDelivered(c, broker, Lines(records, dump));
  }
}

=== FILE: plugin_config.dfy ===
/** The output plugin's configuration and the producer options `configure`
    derives from it. */
module PluginConfig {
  import opened Wrappers

  /** The configuration parameters the modelled code reads. Sizes are byte
      counts; `ackTimeout` is the duration as configured. */
  datatype Config = Config(
    brokers: string,
    clientId: string,
    metricsTopic: string,
    discardKafkaDeliveryFailed: bool,
    maxSendRetries: int,
    requiredAcks: int,
    ackTimeout: Option<int>,
    compressionCodec: Option<string>,
    maxSendLimitBytes: Option<int>,
    kafkaAggMaxBytes: int,
    kafkaAggMaxMessages: Option<int>)

  /** The configuration when nothing is set. */
  const Defaults: Config := Config(
    brokers := "localhost:9092",
    clientId := "fluentd",
    metricsTopic := "metrics",
    discardKafkaDeliveryFailed := false,
    maxSendRetries := 2,
    requiredAcks := 1,
    ackTimeout := None,
    compressionCodec := None,
    maxSendLimitBytes := None,
    kafkaAggMaxBytes := 4 * 1024,
    kafkaAggMaxMessages := None)

  /** The keys of the option hash passed to `Kafka::Client#producer`. */
  datatype OptKey = MaxRetries | RequiredAcks | AckTimeout | CompressionCodec

  /** An option value: an integer, or a symbol given by its name. */
  datatype OptValue = IntOpt(n: int) | SymbolOpt(name: string)

  type ProducerOpts = map<OptKey, OptValue>

  /** The `@producer_opts` hash built by `configure`: retries and acks are
      always present; the ack timeout and the codec (as a symbol) only when
      configured. */
  function ProducerOptsOf(c: Config): (opts: ProducerOpts)
    ensures opts.Keys ==
      {MaxRetries, RequiredAcks}
      + (if c.ackTimeout.Some? then {AckTimeout} else {})
      + (if c.compressionCodec.Some? then {CompressionCodec} else {})
    ensures opts[MaxRetries] == IntOpt(c.maxSendRetries)
    ensures opts[RequiredAcks] == IntOpt(c.requiredAcks)
    ensures AckTimeout in opts ==> opts[AckTimeout] == IntOpt(c.ackTimeout.value)
    ensures CompressionCodec in opts ==> opts[CompressionCodec] == SymbolOpt(c.compressionCodec.value)
  {
    var base := map[MaxRetries := IntOpt(c.maxSendRetries), RequiredAcks := IntOpt(c.requiredAcks)];
    var withTimeout := if c.ackTimeout.Some? then base[AckTimeout := IntOpt(c.ackTimeout.value)] else base;
    if c.compressionCodec.Some? then withTimeout[CompressionCodec := SymbolOpt(c.compressionCodec.value)]
    else withTimeout
  }

  /** With nothing configured, the producer is asked for two retries and one
      acknowledgement, with neither an ack timeout nor a codec. */
  lemma DefaultProducerOpts()
    ensures ProducerOptsOf(Defaults) == map[MaxRetries := IntOpt(2), RequiredAcks := IntOpt(1)]
  {
    var o := ProducerOptsOf(Defaults);
    assert o.Keys == {MaxRetries, RequiredAcks};
  }

  /** The producer options determine, and are determined by, the four
      producer settings of the configuration. */
  lemma ProducerOptsFaithful(c1: Config, c2: Config)
    ensures ProducerOptsOf(c1) == ProducerOptsOf(c2) <==>
      && c1.maxSendRetries == c2.maxSendRetries
      && c1.requiredAcks == c2.requiredAcks
      && c1.ackTimeout == c2.ackTimeout
      && c1.compressionCodec == c2.compressionCodec
  {
    var o1, o2 := ProducerOptsOf(c1), ProducerOptsOf(c2);
    if o1 == o2 {
      assert o1[MaxRetries] == o2[MaxRetries];
      assert o1[RequiredAcks] == o2[RequiredAcks];
      assert (AckTimeout in o1) == (AckTimeout in o2);
      assert (CompressionCodec in o1) == (CompressionCodec in o2);
      if c1.ackTimeout.Some? {
        assert o1[AckTimeout] == o2[AckTimeout];
      }
      if c1.compressionCodec.Some? {
        assert o1[CompressionCodec] == o2[CompressionCodec];
      }
    }
  }
}

=== FILE: producer_pool.dfy ===
/** The per-thread producer pool: `get_producer` and `shutdown_producers`.

    The pool is modelled sequentially (the mutex only serialises these two
    operations), with the current thread's identity passed in as `tid`. A
    handle created by `@kafka.producer(opts)` is a fresh object: the model
    numbers handles in creation order. */
module ProducerPool {
  import opened Wrappers
  import opened PluginConfig

  /** The top-level broker client built by `Kafka.new`. */
  datatype Client = Client(seedBrokers: seq<string>, clientId: string)

  /** A producer handle; `id` is its creation number, which makes it a
      distinct object from every handle created before it. */
  datatype Handle = Handle(id: nat, client: Client, opts: ProducerOpts)

  /** `@producers`, keyed by thread identity. A Ruby hash remembers insertion
      order, which `each_value` follows: `order` lists the thread ids in the
      order they were added. `created` counts the handles made so far. */
  datatype Pool = Pool(producers: map<int, Handle>, order: seq<int>, created: nat)

  /** `order` lists each stored thread once; no thread holds a handle created
      after the count, and no two threads share a handle. */
  predicate Valid(p: Pool) {
    && (forall i :: 0 <= i < |p.order| ==> p.order[i] in p.producers)
    && (forall t :: t in p.producers ==> t in p.order)
    && (forall i, j :: 0 <= i < j < |p.order| ==> p.order[i] != p.order[j])
    && (forall t :: t in p.producers ==> p.producers[t].id < p.created)
    && (forall t, u :: t in p.producers && u in p.producers && t != u ==>
          p.producers[t].id != p.producers[u].id)
  }

  /** The pool of a freshly initialised plugin. */
  const EmptyPool: Pool := Pool(map[], [], 0)

  /** `initialize` starts from a consistent pool, so the invariant the pool
      operations keep holds from the start. */
  lemma EmptyPoolValid()
    ensures Valid(EmptyPool)
  {
  }

  datatype Got = Got(pool: Pool, producer: Handle)

  /** `get_producer` for thread `tid`: the stored handle when there is one;
      otherwise a new handle from `@kafka.producer(opts)`, stored under `tid`.
      With no client (`@kafka` is nil) creating one raises NoMethodError. */
  function GetProducer(p: Pool, kafka: Option<Client>, opts: ProducerOpts, tid: int): (r: Outcome<Got>)
    ensures r.Raised? <==> tid !in p.producers && kafka.None?
    ensures r.Raised? ==> r.error == NoMethodError
    ensures r.Returned? ==>
      && tid in r.value.pool.producers
      && r.value.pool.producers[tid] == r.value.producer
      && r.value.pool.producers.Keys == p.producers.Keys + {tid}
      && (forall t :: t in p.producers ==> r.value.pool.producers[t] == p.producers[t])
    ensures r.Returned? && tid in p.producers ==> r.value.pool == p
    ensures r.Returned? && tid !in p.producers ==>
      && r.value.producer.id == p.created
      && r.value.producer.client == kafka.value
      && r.value.producer.opts == opts
  {
    if tid in p.producers then Returned(Got(p, p.producers[tid]))
    else if kafka.None? then Raised(NoMethodError)
    else
      var h := Handle(p.created, kafka.value, opts);
      Returned(Got(Pool(p.producers[tid := h], p.order + [tid], p.created + 1), h))
  }

  /** A newly created handle is a new object, and the pool stays valid. */
  lemma GetProducerValid(p: Pool, kafka: Option<Client>, opts: ProducerOpts, tid: int)
    requires Valid(p)
    ensures var r := GetProducer(p, kafka, opts, tid);
      r.Returned? ==> Valid(r.value.pool)
    ensures var r := GetProducer(p, kafka, opts, tid);
      r.Returned? && tid !in p.producers ==>
        forall t :: t in p.producers ==> p.producers[t] != r.value.producer
  {
    var r := GetProducer(p, kafka, opts, tid);
    if r.Returned? && tid !in p.producers {
      var q := r.value.pool;
      assert q.order == p.order + [tid];
      assert forall t :: t in q.producers ==> q.producers[t].id < q.created;
      assert forall i :: 0 <= i < |q.order| ==> q.order[i] in q.producers;
      assert forall i, j :: 0 <= i < j < |q.order| ==> q.order[i] != q.order[j];
    }
  }

  /** Asking twice from the same thread gives the same handle and leaves the
      pool as the first call left it. */
  lemma GetProducerIdempotent(p: Pool, kafka: Option<Client>, opts: ProducerOpts, tid: int)
    requires GetProducer(p, kafka, opts, tid).Returned?
    ensures var g := GetProducer(p, kafka, opts, tid).value;
      GetProducer(g.pool, kafka, opts, tid) == Returned(g)
  {
  }

  /** The handles held by some thread. */
  function Stored(m: map<int, Handle>): set<Handle> {
    set t | t in m :: m[t]
  }

  /** The handles stored under the threads of `order`, in that order. */
  function HandlesInOrder(m: map<int, Handle>, order: seq<int>): (hs: seq<Handle>)
    ensures |hs| <= |order|
    ensures forall k :: 0 <= k < |hs| ==> hs[k] in Stored(m)
    decreases |order|
  {
    if |order| == 0 then []
    else
      var t := order[|order| - 1];
      HandlesInOrder(m, order[..|order| - 1]) + (if t in m then [m[t]] else [])
  }

  datatype Sweep = Sweep(pool: Pool, shutDown: seq<Handle>)

  /** `shutdown_producers`: `shutdown` is called on the stored handles in
      insertion order, then the hash is emptied. The creation count is kept,
      so later handles stay new. */
  function ShutdownProducers(p: Pool): (r: Sweep)
    ensures r.pool.producers == map[] && r.pool.order == []
    ensures r.pool.created == p.created
    ensures forall k :: 0 <= k < |r.shutDown| ==> r.shutDown[k] in Stored(p.producers)
  {
    Sweep(Pool(map[], [], p.created), HandlesInOrder(p.producers, p.order))
  }

  /** When `order` lists stored threads, the handles come out one per thread,
      in order. */
  lemma {:induction false} HandlesInOrderExact(m: map<int, Handle>, order: seq<int>)
    requires forall i :: 0 <= i < |order| ==> order[i] in m
    ensures |HandlesInOrder(m, order)| == |order|
    ensures forall i :: 0 <= i < |order| ==> HandlesInOrder(m, order)[i] == m[order[i]]
    decreases |order|
  {
    if |order| > 0 {
      HandlesInOrderExact(m, order[..|order| - 1]);
    }
  }

  /** In a valid pool the sweep calls `shutdown` on every stored handle
      exactly once: each stored handle is in the list, and none twice. */
  lemma ShutdownEachOnce(p: Pool)
    requires Valid(p)
    ensures var hs := ShutdownProducers(p).shutDown;
      && (forall t :: t in p.producers ==> p.producers[t] in hs)
      && (forall i, j :: 0 <= i < j < |hs| ==> hs[i] != hs[j])
      && |hs| == |p.order|
  {
    var hs := ShutdownProducers(p).shutDown;
    HandlesInOrderExact(p.producers, p.order);
    forall t | t in p.producers
      ensures p.producers[t] in hs
    {
      var i :| 0 <= i < |p.order| && p.order[i] == t;
      assert hs[i] == p.producers[t];
    }
    forall i, j | 0 <= i < j < |hs|
      ensures hs[i] != hs[j]
    {
      assert p.order[i] != p.order[j];
    }
  }

  /** After a sweep the pool is valid and every handle a thread gets is a
      new one, never one of those just shut down. */
  lemma SweepThenGetIsFresh(p: Pool, kafka: Option<Client>, opts: ProducerOpts, tid: int)
    requires Valid(p)
    ensures Valid(ShutdownProducers(p).pool)
    ensures var s := ShutdownProducers(p);
      var r := GetProducer(s.pool, kafka, opts, tid);
      r.Returned? ==> r.value.producer !in s.shutDown
  {
    var s := ShutdownProducers(p);
    var r := GetProducer(s.pool, kafka, opts, tid);
    if r.Returned? {
      forall k | 0 <= k < |s.shutDown|
        ensures s.shutDown[k] != r.value.producer
      {
        var t :| t in p.producers && p.producers[t] == s.shutDown[k];
      }
    }
  }
}

=== FILE: ruby_string.dfy ===
/** The handful of Ruby `String` methods the plugin relies on, written out
    over `seq<char>`: `include?`/`Regexp#match` on a literal pattern,
    `split` with a string separator, `join`, `strip` and `bytesize`. */
module RubyString {
  import opened Wrappers

  /* ---------------------------------------------------------------------
     Matching a literal pattern
     --------------------------------------------------------------------- */

  /** `pat` occurs in `s` starting at index `i`. */
  predicate MatchAt(s: string, pat: string, i: nat) {
    i + |pat| <= |s| && s[i..i + |pat|] == pat
  }

  /** The leftmost occurrence of `pat` in `s` at or after `from`, as Ruby's
      string search finds it. */
  function IndexOf(s: string, pat: string, from: nat): (r: Option<nat>)
    ensures r.Some? ==> from <= r.value && MatchAt(s, pat, r.value)
    ensures r.Some? ==> forall j :: from <= j < r.value ==> !MatchAt(s, pat, j)
    ensures r.None? ==> forall j :: from <= j ==> !MatchAt(s, pat, j)
    decreases |s| - from
  {
    if from + |pat| > |s| then None
    else if MatchAt(s, pat, from) then Some(from)
    else IndexOf(s, pat, from + 1)
  }

  /** `pat` occurs somewhere in `s`; `Regexp.new(pat).match(s)` for a pattern
      without metacharacters. */
  predicate Contains(s: string, pat: string) {
    IndexOf(s, pat, 0).Some?
  }

  lemma ContainsIff(s: string, pat: string)
    ensures Contains(s, pat) <==> exists i :: 0 <= i <= |s| - |pat| && MatchAt(s, pat, i)
  {
    if !Contains(s, pat) {
      assert forall i :: 0 <= i ==> !MatchAt(s, pat, i);
    }
  }

  /* ---------------------------------------------------------------------
     split / join
     --------------------------------------------------------------------- */

  /** Every piece of `s` between the non-overlapping, left-to-right
      occurrences of `sep`, empty pieces included. */
  function SplitAll(s: string, sep: string): (fs: seq<string>)
    requires |sep| > 0
    ensures |fs| >= 1
    decreases |s|
  {
    match IndexOf(s, sep, 0)
    case None => [s]
    case Some(i) => [s[..i]] + SplitAll(s[i + |sep|..], sep)
  }

  /** `fs` with its trailing empty strings removed. */
  function DropTrailingEmpty(fs: seq<string>): (r: seq<string>)
    ensures |r| <= |fs| && r == fs[..|r|]
    ensures r == [] || r[|r| - 1] != []
    ensures forall i :: |r| <= i < |fs| ==> fs[i] == []
    decreases |fs|
  {
    if |fs| == 0 then []
    else if fs[|fs| - 1] == [] then DropTrailingEmpty(fs[..|fs| - 1])
    else fs
  }

  /** Ruby's `s.split(sep)` for a string separator other than `" "`:
      occurrences are taken left to right without overlap and trailing
      empty fields are dropped. */
  function Split(s: string, sep: string): (fs: seq<string>)
    requires |sep| > 0
    ensures fs == [] || fs[|fs| - 1] != []
    ensures forall k :: 0 <= k < |fs| ==> !Contains(fs[k], sep)
  {
    SplitAllPiecesFree(s, sep);
    DropTrailingEmpty(SplitAll(s, sep))
  }

  /** Ruby's `fs.join(sep)`. */
  function Join(fs: seq<string>, sep: string): string
    decreases |fs|
  {
    if |fs| == 0 then ""
    else if |fs| == 1 then fs[0]
    else fs[0] + sep + Join(fs[1..], sep)
  }

  /** Joining a piece onto a non-empty list puts the separator between. */
  lemma JoinCons(f: string, tail: seq<string>, sep: string)
    requires |tail| >= 1
    ensures Join([f] + tail, sep) == f + sep + Join(tail, sep)
  {
    assert ([f] + tail)[1..] == tail;
  }

  /** A string is the part before, the part at and the part after a slice. */
  lemma Around(s: string, i: nat, n: nat)
    requires i + n <= |s|
    ensures s == s[..i] + s[i..i + n] + s[i + n..]
  {
  }

  /** A head, the separator, and a tail joining to the rest give back `s`. */
  lemma JoinAround(s: string, sep: string, i: nat, tail: seq<string>)
    requires i + |sep| <= |s| && s[i..i + |sep|] == sep
    requires |tail| >= 1 && Join(tail, sep) == s[i + |sep|..]
    ensures Join([s[..i]] + tail, sep) == s
  {
    JoinCons(s[..i], tail, sep);
    Around(s, i, |sep|);
  }

  /** One step of `JoinSplitAll`: the split of `s` is its head followed by
      the split of the rest. */
  lemma JoinSplitAllStep(s: string, sep: string, i: nat)
    requires |sep| > 0 && IndexOf(s, sep, 0) == Some(i)
    requires Join(SplitAll(s[i + |sep|..], sep), sep) == s[i + |sep|..]
    ensures Join(SplitAll(s, sep), sep) == s
  {
    var tail := SplitAll(s[i + |sep|..], sep);
    assert SplitAll(s, sep) == [s[..i]] + tail;
    JoinAround(s, sep, i, tail);
  }

  /** Joining the pieces of a split gives back the original string. */
  lemma {:induction false} JoinSplitAll(s: string, sep: string)
    requires |sep| > 0
    ensures Join(SplitAll(s, sep), sep) == s
    decreases |s|
  {
    match IndexOf(s, sep, 0)
    case None =>
    case Some(i) =>
      JoinSplitAll(s[i + |sep|..], sep);
      JoinSplitAllStep(s, sep, i);
  }

  /** The piece before the leftmost occurrence holds no occurrence. */
  lemma HeadFree(s: string, sep: string, i: nat)
    requires |sep| > 0 && IndexOf(s, sep, 0) == Some(i)
    ensures !Contains(s[..i], sep)
  {
    var head := s[..i];
    forall j | 0 <= j <= |head| - |sep|
      ensures !MatchAt(head, sep, j)
    {
      assert j < i;
      assert !MatchAt(s, sep, j);
      assert head[j..j + |sep|] == s[j..j + |sep|];
    }
    ContainsIff(head, sep);
  }

  /** No piece of a split contains the separator. */
  lemma {:induction false} SplitAllPiecesFree(s: string, sep: string)
    requires |sep| > 0
    ensures forall k :: 0 <= k < |SplitAll(s, sep)| ==> !Contains(SplitAll(s, sep)[k], sep)
    decreases |s|
  {
    match IndexOf(s, sep, 0)
    case None =>
      ContainsIff(s, sep);
    case Some(i) =>
      var rest := s[i + |sep|..];
      SplitAllPiecesFree(rest, sep);
      HeadFree(s, sep, i);
      var fs := SplitAll(s, sep);
      assert fs == [s[..i]] + SplitAll(rest, sep);
      forall k | 0 <= k < |fs|
        ensures !Contains(fs[k], sep)
      {
        if k > 0 {
          assert fs[k] == SplitAll(rest, sep)[k - 1];
        }
      }
  }

  /** `f` can stand before a separator: in `f + sep` the first occurrence of
      `sep` is the appended one. Then `f` holds no `sep`, and no suffix of `f`
      starts an occurrence that runs into the separator. */
  predicate Separable(f: string, sep: string) {
    IndexOf(f + sep, sep, 0) == Some(|f|)
  }

  /** The leftmost match is determined by where `pat` occurs. */
  lemma IndexOfIs(s: string, pat: string, from: nat, i: nat)
    requires from <= i && MatchAt(s, pat, i)
    requires forall j :: from <= j < i ==> !MatchAt(s, pat, j)
    ensures IndexOf(s, pat, from) == Some(i)
  {
  }

  lemma SeparableHeadMatch(f: string, sep: string, rest: string)
    requires Separable(f, sep)
    ensures IndexOf(f + sep + rest, sep, 0) == Some(|f|)
  {
    var s := f + sep + rest;
    assert s[|f|..|f| + |sep|] == sep;
    forall j | 0 <= j < |f|
      ensures !MatchAt(s, sep, j)
    {
      assert !MatchAt(f + sep, sep, j);
      assert s[j..j + |sep|] == (f + sep)[j..j + |sep|];
    }
    IndexOfIs(s, sep, 0, |f|);
  }

  /** A separable piece holds no separator, so it splits to itself. */
  lemma SplitAllSeparable(f: string, sep: string)
    requires |sep| > 0 && Separable(f, sep)
    ensures SplitAll(f, sep) == [f]
  {
    forall j | 0 <= j <= |f| - |sep|
      ensures !MatchAt(f, sep, j)
    {
      assert !MatchAt(f + sep, sep, j);
      assert (f + sep)[j..j + |sep|] == f[j..j + |sep|];
    }
    assert forall j :: 0 <= j ==> !MatchAt(f, sep, j);
  }

  /** A separable head splits off as the first piece. */
  lemma SplitAllCons(f: string, sep: string, rest: string)
    requires |sep| > 0 && Separable(f, sep)
    ensures SplitAll(f + sep + rest, sep) == [f] + SplitAll(rest, sep)
  {
    var s := f + sep + rest;
    SeparableHeadMatch(f, sep, rest);
    assert s[..|f|] == f;
    assert s[|f| + |sep|..] == rest;
  }

  /** Splitting a join of separable pieces gives back the pieces. */
  lemma {:induction false} SplitAllJoin(fs: seq<string>, sep: string)
    requires |sep| > 0 && |fs| >= 1
    requires forall k :: 0 <= k < |fs| ==> Separable(fs[k], sep)
    ensures SplitAll(Join(fs, sep), sep) == fs
    decreases |fs|
  {
    if |fs| == 1 {
      SplitAllSeparable(fs[0], sep);
    } else {
      var tail := fs[1..];
      forall k | 0 <= k < |tail|
        ensures Separable(tail[k], sep)
      {
        assert tail[k] == fs[k + 1];
      }
      SplitAllJoin(tail, sep);
      SplitAllCons(fs[0], sep, Join(tail, sep));
      assert fs == [fs[0]] + tail;
    }
  }

  /** A single-character separator that no piece contains is always
      separable, so `Split` inverts `Join` for newline-joined lines. */
  lemma SeparableByChar(f: string, c: char)
    requires forall k :: 0 <= k < |f| ==> f[k] != c
    ensures Separable(f, [c])
  {
    var s := f + [c];
    assert MatchAt(s, [c], |f|);
    forall j | 0 <= j < |f|
      ensures !MatchAt(s, [c], j)
    {
      assert s[j] == f[j];
    }
    IndexOfIs(s, [c], 0, |f|);
  }

  /** A piece without the separator's first character is separable. */
  lemma SeparableWhenLeadAbsent(f: string, sep: string)
    requires |sep| >= 1 && sep[0] !in f
    ensures Separable(f, sep)
  {
    var s := f + sep;
    assert s[|f|..] == sep;
    forall j | 0 <= j < |f|
      ensures !MatchAt(s, sep, j)
    {
      assert s[j] == f[j];
    }
    IndexOfIs(s, sep, 0, |f|);
  }

  /** From index `j` on, no character of `f` could begin an occurrence of a
      separator of two or more characters that runs past the end of `f`: a
      character equal to `sep[0]` is never last and never followed by
      `sep[1]`. */
  predicate StartSafeFrom(f: string, sep: string, j: nat)
    requires |sep| >= 2
    decreases |f| - j
  {
    j >= |f|
    || ((f[j] != sep[0] || (j + 1 < |f| && f[j + 1] != sep[1])) && StartSafeFrom(f, sep, j + 1))
  }

  lemma {:induction false} StartSafeAt(f: string, sep: string, i: nat, j: nat)
    requires |sep| >= 2 && StartSafeFrom(f, sep, i) && i <= j < |f|
    ensures f[j] != sep[0] || (j + 1 < |f| && f[j + 1] != sep[1])
    decreases j - i
  {
    if i < j {
      StartSafeAt(f, sep, i + 1, j);
    }
  }

  /** A start-safe piece is separable. */
  lemma SeparableWhenStartSafe(f: string, sep: string)
    requires |sep| >= 2 && StartSafeFrom(f, sep, 0)
    ensures Separable(f, sep)
  {
    var s := f + sep;
    assert s[|f|..] == sep;
    assert MatchAt(s, sep, |f|);
    forall j | 0 <= j < |f|
      ensures !MatchAt(s, sep, j)
    {
      StartSafeAt(f, sep, 0, j);
      assert s[j] == f[j];
      if j + 1 < |f| {
        assert s[j + 1] == f[j + 1];
      }
    }
    IndexOfIs(s, sep, 0, |f|);
  }

  /* ---------------------------------------------------------------------
     strip
     --------------------------------------------------------------------- */

  /** The characters Ruby's `strip` removes: NUL, tab, line feed, vertical
      tab, form feed, carriage return and space. */
  predicate IsWhitespace(c: char) {
    c == '\0' || c == '\t' || c == '\n' || c == '\U{B}' || c == '\U{C}' || c == '\r' || c == ' '
  }

  predicate AllWhitespace(s: string) {
    forall k :: 0 <= k < |s| ==> IsWhitespace(s[k])
  }

  /** Ruby's `lstrip`: the longest suffix of `s` that starts with a
      non-whitespace character, or the empty string. */
  function LStrip(s: string): (r: string)
    ensures |r| <= |s| && r == s[|s| - |r|..]
    ensures forall k :: 0 <= k < |s| - |r| ==> IsWhitespace(s[k])
    ensures r == [] || !IsWhitespace(r[0])
    decreases |s|
  {
    if |s| > 0 && IsWhitespace(s[0]) then LStrip(s[1..]) else s
  }

  /** Ruby's `rstrip`: the longest prefix of `s` that ends with a
      non-whitespace character, or the empty string. */
  function RStrip(s: string): (r: string)
    ensures |r| <= |s| && r == s[..|r|]
    ensures forall k :: |r| <= k < |s| ==> IsWhitespace(s[k])
    ensures r == [] || !IsWhitespace(r[|r| - 1])
    decreases |s|
  {
    if |s| > 0 && IsWhitespace(s[|s| - 1]) then RStrip(s[..|s| - 1]) else s
  }

  /** Ruby's `strip`. */
  function Strip(s: string): (r: string)
    ensures |r| <= |s|
    ensures r == [] || (!IsWhitespace(r[0]) && !IsWhitespace(r[|r| - 1]))
  {
    var l := LStrip(s);
    var r := RStrip(l);
    assert r != [] ==> r[0] == l[0];
    r
  }

  /** `r` sits in `s` between a whitespace prefix and a whitespace suffix. */
  predicate Framed(r: string, s: string) {
    exists a :: (0 <= a <= |s| - |r| && r == s[a..a + |r|]
                 && AllWhitespace(s[..a]) && AllWhitespace(s[a + |r|..]))
  }

  /** A whitespace prefix cut off to give `l`, then a whitespace suffix cut
      off `l` to give `r`, leave `r` framed by whitespace in `s`. */
  lemma TrimmedBetween(s: string, l: string, r: string)
    requires |l| <= |s| && l == s[|s| - |l|..]
    requires forall k :: 0 <= k < |s| - |l| ==> IsWhitespace(s[k])
    requires |r| <= |l| && r == l[..|r|]
    requires forall k :: |r| <= k < |l| ==> IsWhitespace(l[k])
    ensures Framed(r, s)
  {
    var a := |s| - |l|;
    assert r == s[a..a + |r|];
    var tl := s[a + |r|..];
    forall k | 0 <= k < |tl|
      ensures IsWhitespace(tl[k])
    {
      assert tl[k] == l[|r| + k];
    }
    var hd := s[..a];
    forall k | 0 <= k < |hd|
      ensures IsWhitespace(hd[k])
    {
      assert hd[k] == s[k];
    }
    assert 0 <= a <= |s| - |r| && r == s[a..a + |r|] && AllWhitespace(hd) && AllWhitespace(tl);
  }

  /** `Strip` removes exactly a whitespace prefix and a whitespace suffix and
      keeps the part in between. */
  lemma StripTrims(s: string)
    ensures Framed(Strip(s), s)
  {
    TrimmedBetween(s, LStrip(s), RStrip(LStrip(s)));
  }

  /** What `Strip` keeps neither starts nor ends with whitespace. */
  lemma StripEdges(s: string)
    ensures Strip(s) == [] || (!IsWhitespace(Strip(s)[0]) && !IsWhitespace(Strip(s)[|Strip(s)| - 1]))
  {
    var l := LStrip(s);
    var r := RStrip(l);
    if r != [] {
      assert r[0] == l[0];
    }
  }

  /** A string that neither starts nor ends with whitespace is its own
      strip; in particular `strip` is idempotent. */
  lemma StripTrimmed(s: string)
    requires s == [] || (!IsWhitespace(s[0]) && !IsWhitespace(s[|s| - 1]))
    ensures Strip(s) == s
  {
  }

  lemma StripIdempotent(s: string)
    ensures Strip(Strip(s)) == Strip(s)
  {
    StripEdges(s);
    StripTrimmed(Strip(s));
  }

  /* ---------------------------------------------------------------------
     bytesize
     --------------------------------------------------------------------- */

  /** Length of the UTF-8 encoding of one character. */
  function Utf8Length(c: char): nat {
    var n := c as int;
    if n < 0x80 then 1 else if n < 0x800 then 2 else if n < 0x1_0000 then 3 else 4
  }

  /** Ruby's `bytesize` of a UTF-8 string. */
  function ByteSize(s: string): (n: nat)
    ensures |s| <= n <= 4 * |s|
    decreases |s|
  {
    if |s| == 0 then 0 else ByteSize(s[..|s| - 1]) + Utf8Length(s[|s| - 1])
  }

  /** `bytesize` adds up over concatenation. */
  lemma {:induction false} ByteSizeAppend(a: string, b: string)
    ensures ByteSize(a + b) == ByteSize(a) + ByteSize(b)
    decreases |b|
  {
    if |b| > 0 {
      var b' := b[..|b| - 1];
      assert (a + b)[..|a + b| - 1] == a + b';
      ByteSizeAppend(a, b');
    } else {
      assert a + b == a;
    }
  }
}

=== FILE: wrappers.dfy ===
/** Failure-carrying datatypes shared by the whole model.

    Ruby's `nil` becomes `None`, and a Ruby exception that escapes a method
    becomes `Raised(e)` with `e` one of the exception classes the plugin can
    observe. */
module Wrappers {

  /** A Ruby value that may be `nil`. */
  datatype Option<+T> = None | Some(value: T)

  /** The exception classes the plugin either rescues or lets escape. */
  datatype Exception =
    | NoMethodError     // a method called on `nil`
    | DeliveryFailed    // Kafka::DeliveryFailed raised by a delivery
    | BrokerError       // any other error raised by the broker client during a delivery
    | ClientInitError   // Kafka.new raised while building the top-level client

  /** The outcome of a Ruby call: a value, or an exception that escaped it. */
  datatype Outcome<+T> = Returned(value: T) | Raised(error: Exception)
}
